=== FILE: README.md ===
# PrestaShop price manager — a verified model of its decision logic

`prestashop_price_manager.py` is a desktop tool that loads a supplier price
list, derives sale prices from purchase prices and a margin, and pushes those
prices to a PrestaShop shop. It pushes them either row by row through the
shop's web service or as an SQL script for phpMyAdmin. This project models
the logic under the window as pure Dafny:

- **Selection.** The group filter behind the table (`df_filtered`). The positive-purchase-price filter turns that view into the batch both output paths use.
- **PriceEngine.** The margin formula `round(purchase * (1 + m/100), 3)` and the manual edit of a sale price (`,` read as `.`).
- **DecimalText.** Exact decimal arithmetic for the above: round-half-even to a number of places, `:.Nf` rendering, and the plain-decimal subset of `float(str)`. Rendering then parsing gives back the rounded value.
- **Catalog.** The web-service client's two decisions. The first is the two-strategy product lookup by supplier reference (`get_product_by_supplier_ref`). The second is the price rewrite: fetch, strip seven read-only fields, set the price, and `POST products/{id}?ps_method=PUT`, with success only on status 200 (`update_product_price`). The shop is an oracle `catalog: Request -> Reply`.
- **Reconcile.** The `_do_update` loop: an SKU-to-id cache, three counters and a log. The loop goes through a `Context` of two calls, lookup and push; `ShopContext` wires them to the client.
- **SqlScript.** The script `generate_sql` writes, as typed lines (`SqlLine`) with one `Render` to text. The supplier id comes from the configuration or the dialog.
- **App.** The application state and its commands: load, group boxes, margin spin box, apply margin, edit, update via API, generate SQL. It also holds a worked example: three rows, a 10% margin, A1 resolving to product 100, A3 unknown.

Behaviour of the code that is easy to get wrong, and that the model follows:

- **The SKU cache lives as long as the application.** It is not limited to one run: it survives reloads and later runs.
- **A failed lookup is not remembered.** A SKU that does not resolve is looked up again on each of its rows. "At most one lookup per SKU" holds only for SKUs that resolve (`Reconcile.LookupOnlyWhenUnknown`).
- **The edit accepts a negative price.** Re-applying the margin overwrites manual edits; no override survives it.
- **The SQL script includes every row with a positive purchase price.** This includes rows the shop does not know (A3 in the example).
- **Only status 200 counts as success** for a price write.
- **Only a non-empty id enters the cache.**
- **Rows without a group are dropped when the group filter is active.** pandas' `groupby` makes no box for them and `isin` never matches them.
- **The log's summary line and the script's margin comment use the current spin-box margin.** This is not necessarily the margin the prices were computed with (`App.SpinBoxOnlyRelabels`).
- **The SKU is written into the SQL unescaped.**

## Model

| member | source | states |
|---|---|---|
| Selection.FilterRows | prestashop_price_manager.py:397-404 | Keeps rows in sheet order, each a copy of its sheet row. Without a group column, or with no boxes, every row stays at its position. Otherwise a row is kept iff its group is ticked. With every box unticked the view is empty. |
| Selection.PrepareBatch | prestashop_price_manager.py:513-521 | An empty view aborts with NothingSelected. A view with no positive purchase price aborts with NothingPriced. It succeeds iff some entry of the view has purchase > 0, and then the batch is non-empty and holds exactly the view's entries with purchase > 0. |
| Selection.Priced | prestashop_price_manager.py:517 | The batch holds exactly the entries of the view with a positive purchase price, and is no longer than the view. |
| Selection.PricedKeepsOrder | prestashop_price_manager.py:517 | The positive-price filter keeps the view's order. |
| Selection.AscendingDeterminedByMembers | prestashop_price_manager.py:517 | Two ordered views with the same entries are equal. Together with the membership and order contracts, this pins the batch down completely. |
| PriceEngine.MarginPrice | prestashop_price_manager.py:341-342 | The margin price has three decimals and lies within half a unit of the third decimal of the exact `purchase * (1 + m/100)`. |
| PriceEngine.MarginPriceIsNearest | prestashop_price_manager.py:342 | No three-decimal value is closer to the exact product than the margin price. |
| PriceEngine.ApplyMargin | prestashop_price_manager.py:455-456 | Every row's sale price becomes its margin price; SKU, purchase price and group are unchanged. |
| PriceEngine.MarginOverwritesEdit | prestashop_price_manager.py:455-456 | Applying the margin after a successful manual edit gives the same sheet as applying it without the edit: no edit survives. |
| PriceEngine.LastMarginWins | prestashop_price_manager.py:455-456 | Applying two margins in a row equals applying only the second. |
| PriceEngine.EditSale | prestashop_price_manager.py:473-500 | An unknown row gives NoSuchRow and unreadable text gives InvalidPrice, both with no change. On success only the edited row's sale price changes, to the parsed value. |
| PriceEngine.SeparatorsInterchangeable | prestashop_price_manager.py:492 | Two inputs that differ only in using `,` or `.` as separator parse to the same price. |
| PriceEngine.CommaAndPointAgree | prestashop_price_manager.py:492 | "12,5" and "12.5" both parse to 12.5. |
| PriceEngine.NegativeEditAccepted | prestashop_price_manager.py:492-493 | Typing "-5" stores -5 as the sale price. |
| DecimalText.FormatParseRoundTrip | prestashop_price_manager.py:635 | The text `:.3f` prints for a price parses back to the price rounded to three decimals. |
| DecimalText.RoundKeepsExact | prestashop_price_manager.py:342 | Rounding a value that already has three decimals leaves it unchanged. |
| DecimalText.Round | prestashop_price_manager.py:342 | The rounded value has the requested number of decimals and lies within half a unit of the last decimal of the input. |
| DecimalText.FormatFixed | prestashop_price_manager.py:571 | The text starts with a minus sign iff the value is negative. With no places there is no decimal point; otherwise exactly `places` digits follow the point. |
| DecimalText.ParseDecimal | prestashop_price_manager.py:492 | A text is read only if every character is a digit, a point, a sign or white space and at least one is a digit; anything else, the empty text included, is rejected. A plain string of digits reads as the number it denotes. |
| DecimalText.StrayCharacterRejected | prestashop_price_manager.py:492-500 | "abc" and "12,5" are rejected: a letter or a comma that reaches `float` makes the edit invalid. |
| DecimalText.DigitlessRejected | prestashop_price_manager.py:492-500 | "+" and " . " are rejected: a sign or a point needs a digit. |
| DecimalText.SecondPointRejected | prestashop_price_manager.py:492-500 | "1.2.3" is rejected: a decimal has at most one point. |
| Catalog.FindProductId | prestashop_price_manager.py:49-89 | The reference search is always sent first. The supplier search is sent second iff the first missed and a non-empty supplier id is set. A first-search hit returns its id. A crash in the first search, a miss without a supplier id, and a miss or crash in the second search all return no id. An id is returned only from a first-search hit or, after a miss, a second-search hit. |
| Catalog.ReadProbe | prestashop_price_manager.py:67-70 | A raised request is a crash and a non-200 status is a miss. For a 200 answer, an unparsable body is a crash, a document without the record is a miss, a first record without the id child is a crash, and otherwise the probe hits with that child's text. |
| Catalog.ListedProductFound | prestashop_price_manager.py:67-70 | A product listed under the SKU yields the id of the first product record, after one request, whatever supplier id is set. |
| Catalog.SupplierIgnoredUnlessMiss | prestashop_price_manager.py:72-85 | When the first search does not miss, the supplier id has no influence on the lookup. |
| Catalog.EmptySupplierIsNone | prestashop_price_manager.py:74 | An empty supplier id behaves exactly like none. |
| Catalog.FallbackAnswers | prestashop_price_manager.py:74-85 | After a first-search miss, the id is the `id_product` of the first product-supplier record. |
| Catalog.RemoveFirst | prestashop_price_manager.py:121-124 | Removing a tag drops exactly the first child carrying it, keeping the others in order; without such a child nothing changes. Every other tag's count is unchanged. |
| Catalog.StripReadOnlyIsWithout | prestashop_price_manager.py:116-124 | When each read-only field occurs at most once, stripping yields exactly the children whose tag is not read-only, in order. |
| Catalog.SetFirstText | prestashop_price_manager.py:127-129 | Only the first `price` child's text changes. Without a `price` child nothing changes. |
| Catalog.RewriteDropsReadOnly | prestashop_price_manager.py:116-129 | The product sent back is the non-read-only children in order, with the price text set. No read-only field remains. |
| Catalog.Rewrite | prestashop_price_manager.py:116-129 | The rewritten product keeps its tag. Each read-only field present at most once is gone, every other tag occurs as often as before, and the first `price` child holds the new text. |
| Catalog.UpdateProductPrice | prestashop_price_manager.py:105-144 | The product is always fetched first. A non-200 fetch gives "Produit … non trouvé" and sends nothing more. A fetch that raises, or a 200 answer whose body does not parse, fails with the exception's text and sends nothing more. A write is sent iff the fetch answered 200 with a document holding a `product` element, and it goes to `products/{id}?ps_method=PUT`. Success holds iff that write answered 200, with message "OK". |
| Catalog.Write | prestashop_price_manager.py:133-141 | The write succeeds iff the answer is 200. A raised write reports its reason; another status reports "Erreur <status>". |
| Catalog.UpdateSendsRewrittenProduct | prestashop_price_manager.py:129-136 | The write carries the fetched document with its first product replaced by the rewritten one. |
| Catalog.RejectedWriteReported | prestashop_price_manager.py:138-141 | A write answered with another status than 200 is a failure reported as "Erreur <status>". |
| Reconcile.ShopContext | prestashop_price_manager.py:557-568 | The loop's lookup is the client's lookup with the configured supplier id. Its push is the client's price update: same success flag, same message. |
| Reconcile.ProcessRow | prestashop_price_manager.py:554-575 | A row is skipped iff no non-empty id resolves from the cache or a lookup. A failed push is recorded with the push's message. A lookup is sent iff the SKU is not cached. A resolved uncached SKU is cached with the id its lookup returned; otherwise the cache is unchanged. |
| Reconcile.RowCache | prestashop_price_manager.py:554-560 | The cache never loses or changes an entry. It learns the row's SKU iff the row was not skipped, and a newly learned SKU holds the non-empty id its lookup returned. |
| Reconcile.RunClassifies | prestashop_price_manager.py:554-575 | Each row of a run gets exactly one outcome from the id it resolves with its predecessors' cache. Skipped iff no id; updated iff the push succeeds; error iff it fails, carrying its message. |
| Reconcile.RunCache | prestashop_price_manager.py:554-560 | After a run the cache is the starting cache plus exactly the SKUs of the rows that were not skipped. Each new entry holds the non-empty id the lookup returns for its SKU. |
| Reconcile.LookupOnlyWhenUnknown | prestashop_price_manager.py:554-560 | A row sends a lookup iff its SKU was not cached at the start and every earlier row with that SKU was skipped. |
| Reconcile.ResolvedSkuNotLookedUpAgain | prestashop_price_manager.py:554-560 | Once a row resolves its SKU, no later row with that SKU sends a lookup. |
| Reconcile.TallyAllSkipped | prestashop_price_manager.py:562-575 | No updates and no errors iff every row was skipped. |
| Reconcile.HandleRow | prestashop_price_manager.py:554-575 | The loop body's outcome and cache are those of ProcessRow. |
| Reconcile.UpdateRows | prestashop_price_manager.py:545-575 | The loop's counters are the tally of the run's outcomes, its log lines are the run's lines, and its cache is the run's cache. |
| Reconcile.DoUpdate | prestashop_price_manager.py:534-575 | The counters add up to the batch size. The log is the title, the summary, then one line per row in batch order recording that row's outcome. The cache is what the run leaves. |
| Reconcile.Render | prestashop_price_manager.py:541-575 | The title holds the clock reading. The summary holds the row count in digits and the margin, which reads back rounded to a whole number. A row's line is a symbol for its outcome, the SKU and a colon, then the shop's message for a failure, the "not found" note for a skipped row, or, for an update, a price that reads back as the sale price rounded to three decimals, followed by the euro sign. |
| Reconcile.LogLineShowsOutcome | prestashop_price_manager.py:563-575 | Two row lines with the same text record the same kind of outcome. |
| SqlScript.SupplierFor | prestashop_price_manager.py:607-616 | A non-empty configured id wins. Otherwise a non-empty typed answer is used. A cancelled or empty answer aborts. |
| SqlScript.GenerateSql | prestashop_price_manager.py:595-616 | A batch failure aborts first, then a missing supplier id. On success the script is header, statements and trailer for the batch. |
| SqlScript.Script | prestashop_price_manager.py:621-645 | The script has batch size + 8 lines. The header announces the margin, the number of products in the batch and the supplier id, and the last line is the synchronisation of `ps_product_shop` for that supplier. |
| SqlScript.ScriptShape | prestashop_price_manager.py:621-645 | The script has batch size + 8 lines: the five header lines, then one price statement per batch entry in batch order reading the current sheet row, then the three trailing lines. |
| SqlScript.ScriptStatementCount | prestashop_price_manager.py:628-645 | There are exactly batch size + 1 statements, counted both on the lines and on the rendered texts starting with UPDATE. |
| SqlScript.RenderedStatement | prestashop_price_manager.py:622-645 | A rendered line starts with "UPDATE " iff it is a statement. |
| SqlScript.Render | prestashop_price_manager.py:621-645 | A line renders as empty text iff it is a blank line, and every other line that is not a statement renders as a `-- ` comment. The header comments show the run date, the number of products and the supplier id after their labels, and the margin between its label and "%" reads back as the margin rounded to a whole number. A row statement's price, between the table clauses and the condition on SKU and supplier, reads back as the price rounded to three decimals. The synchronisation statement updates `ps_product_shop` and ends with the condition on the supplier id. |
| SqlScript.StatementPrice | prestashop_price_manager.py:633-636 | A price statement is the table clauses, the printed price, then the row condition with the SKU and supplier. The printed price reads back as the sale price rounded to three decimals. |
| SqlScript.ScriptRelabel | prestashop_price_manager.py:623 | Scripts for the same batch under two margins differ only in the margin comment. |
| SqlScript.UnpricedRowsExcluded | prestashop_price_manager.py:601 | A row without a positive purchase price is never in a script's batch. |
| App.Load | prestashop_price_manager.py:330-345 | After a load the sheet holds the margin prices. The group-column flag is the sheet's. There is one ticked box per group, or none without a group column. The view is the filtered sheet, and the cache, margin and configuration are kept. |
| App.Refilter | prestashop_price_manager.py:392-404 | Before a sheet is loaded nothing changes. Otherwise only the view changes, to the filtered copy of the sheet. |
| App.LoadShowsGroupedRows | prestashop_price_manager.py:366-372 | Right after a load, a row is shown iff it has a group, or there is no group column, or no row has a group. |
| App.SetCheck | prestashop_price_manager.py:375-380 | Ticking a known box changes only that box and the view. After a load the view is refiltered from the sheet with the new boxes. An unknown group changes nothing. |
| App.SetCheckUndo | prestashop_price_manager.py:375-380 | When the table shows the current filter, putting a box back the way it was gives back the same application. |
| App.SetAllChecks | prestashop_price_manager.py:382-390 | All boxes take the same value, with the same groups, and only the boxes and the view change. After a load the view is refiltered from the sheet. Unticking all empties the view. Ticking all shows every row whose group has a box. |
| App.DeselectAllBlocksBatch | prestashop_price_manager.py:387-390 | With every box unticked, both output paths abort with NothingSelected. |
| App.ApplyMarginCommand | prestashop_price_manager.py:450-458 | Apply margin recomputes the sheet from the spin-box margin and refilters the view from the new sheet. Nothing else changes. Before a load it does nothing. |
| App.ApplyMarginTwice | prestashop_price_manager.py:450-458 | Applying the margin a second time changes nothing. |
| App.ApplyMarginErasesEdit | prestashop_price_manager.py:456 | Applying the margin after a manual edit gives the same application as applying it without the edit. |
| App.SetMargin | prestashop_price_manager.py:217-218 | Turning the spin box changes the margin and nothing else; nothing is recomputed. |
| App.SpinBoxOnlyRelabels | prestashop_price_manager.py:623 | After turning the spin box without applying, the script differs only in its margin comment; its prices are unchanged. |
| App.EditPrice | prestashop_price_manager.py:460-500 | A cancelled dialog changes nothing. Otherwise the edit succeeds iff the row exists and the text parses. It then changes only that sheet row's sale price; every other field of the application, the snapshot view included, is left as it was. |
| App.ApiBatchAsWritten | prestashop_price_manager.py:513-521 | The API batch as the code builds it. An empty snapshot fails with NothingSelected, and a non-empty one with no positive purchase price fails with NothingPriced. Otherwise it holds exactly the snapshot's priced entries, as the snapshot holds them, in order. |
| App.EditBypassesApiBatchAsWritten | prestashop_price_manager.py:493 | As written, a manual edit leaves the API batch exactly as it was. |
| App.StaleEditReachesShop | prestashop_price_manager.py:493 | Concrete case: a row bought at 10 with margin 12 is edited to "12". The sheet holds 12, but the API batch as written holds 11.2; the corrected batch holds 12. |
| App.ApiBatch | prestashop_price_manager.py:513-521 | Corrected API batch: the same positions as the snapshot's priced entries, each read from the sheet, all with purchase > 0. It fails exactly when the snapshot gives no batch. |
| App.FreshSnapshotSameBatch | prestashop_price_manager.py:400-404 | While the snapshot is a faithful copy of the sheet, the corrected and as-written batches are equal. |
| App.EditReachesApiBatch | prestashop_price_manager.py:493 | With the corrected batch, an edited row in the batch is pushed at the typed price. Every other entry and all positions are unchanged. |
| App.UpdateViaApi | prestashop_price_manager.py:502-532 | No configured shop, an empty view, no priced row or a declined confirmation each stop with nothing sent and the state unchanged. Otherwise the loop runs on the corrected batch (App.ApiBatch). The counters tally the run's outcomes and add up to the batch size. The log has two header lines plus one per row in order, and only the cache grows. |
| App.GenerateSqlCommand | prestashop_price_manager.py:595-616 | The command aborts iff there is no batch or no supplier id, with the batch error taking precedence. |
| App.SqlMatchesApiBatch | prestashop_price_manager.py:628-636 | The script's statements list the same rows in the same order with the same sale prices as the corrected API batch, plus the trailing synchronisation. |
| App.ExampleLoaded | prestashop_price_manager.py:341-342 | Loading A1 (10), A2 (0) and A3 (20) with a 10% margin gives sale prices 11, 0 and 22, all shown. |
| App.ExampleBatch | prestashop_price_manager.py:517 | The example batch is A1 then A3. |
| App.ExampleRun | prestashop_price_manager.py:554-575 | With A1 at product 100 accepting the price and A3 unknown, the outcomes are updated then skipped. The totals are (1, 1, 0) and only A1 is cached. |
| App.ExampleScript | prestashop_price_manager.py:621-645 | The example script has 10 lines and 3 statements: A1 at 11 and A3 at 22 for supplier 7. |

## Left out

- Widgets, dialogs, message boxes, progress bar and statistics labels: dialog answers (edit text, supplier id, confirmation) are parameters, and aborts are `Failure` values.
- The background thread of `update_via_api`: the loop runs to completion, sequentially.
- Reading the Excel file with pandas: a load takes the rows as parsed. A file missing the SKU or price column fails after `self.df` was already replaced; that error path is not modelled.
- Columns other than SKU, purchase price, group and sale price: display only.
- `config.ini`: the margin, supplier id and whether a shop is configured are parameters of `App.Start`.
- The clock: `stamp` is the formatted time, given as a parameter.
- Writing the log and SQL files, and the final `'\n'.join`: the model stops at the lines; `Render` gives each line's text.
- HTTP session, Basic authentication and headers: the shop is a pure oracle, so it answers the same request the same way within a run.
- ElementTree parsing and serialisation: a body is either rejected (`Malformed`) or a list of record elements with flat children; nested markup is kept as opaque text.
- Catalog.UpdateProductPrice: `str(price)` is the parameter `show`, since Python's shortest float repr is not modelled.
- App.UpdateViaApi: runs the loop on the corrected batch, whose rows are read from the sheet. The program as written pushes the rows of the `df_filtered` snapshot, so a manual edit made since the last refilter is not sent (see Findings; App.ApiBatchAsWritten).
- Catalog.FindProductId: the message printed when a search raises is not modelled; only the resulting absence of an id is.
- DecimalText.ParseDecimal: accepts plain ASCII decimals only. `float` also reads exponents, `inf`, `nan`, digit underscores, white space beyond ASCII (such as a no-break space) and non-ASCII decimal digits (such as full-width digits); the model rejects those, so an edit typed with them is reported as an invalid price where the program would apply it.
- PriceEngine.MarginPrice: prices are exact rationals with explicit round-half-even. Binary floating-point effects of pandas `round` and `:.3f` are not modelled.

## Findings

| source | as written | input that shows it | evidently intended | confidence | as-written member | corrected member |
|---|---|---|---|---|---|---|
| prestashop_price_manager.py:493 and prestashop_price_manager.py:517 | `edit_price` writes the new price into `self.df` only. `update_via_api` builds its batch from the `df_filtered` snapshot taken at the last refilter, so the API pushes the pre-edit price. `generate_sql` re-reads `self.df.loc[idx]` and writes the edited one. | One row bought at 10 with margin 12 (sale 11.2). Edit it to "12", then update via API: the shop receives 11.2 while the sheet shows 12 (App.StaleEditReachesShop; App.EditBypassesApiBatchAsWritten for every edit). | A manual edit is what both output paths send: the API batch reads each row from the sheet, as the SQL path does (App.EditReachesApiBatch, App.SqlMatchesApiBatch). `App.UpdateViaApi` uses the corrected batch. | not executed | App.ApiBatchAsWritten | App.ApiBatch |

=== FILE: app.dfy ===
/**
  The application state behind the window and the commands that change it:
  loading a sheet, the group boxes, applying the margin, the manual edit,
  the API update and the SQL script. Widgets, dialogs and message boxes
  become parameters and results.
*/
module App {
  import opened Wrappers
  import opened DecimalText
  import opened Selection
  import opened PriceEngine
  import opened Catalog
  import opened Reconcile
  import opened SqlScript

  /**
    What the application holds: whether a sheet was loaded, the sheet, the
    snapshot shown in the table (`df_filtered`), whether the sheet has a group
    column, one box per group, the margin spin box, the SKU-to-id cache (kept
    for the life of the application, across loads and runs), and the
    configuration read at start-up.
  */
  datatype App = App(
    loaded: bool,
    sheet: seq<Row>,
    view: seq<Entry>,
    hasGroupColumn: bool,
    checks: map<string, bool>,
    margin: real,
    cache: map<string, string>,
    supplierId: Option<string>,
    apiConfigured: bool)

  /**
    A view entry agrees with the sheet row at its position in every column
    but, possibly, the sale price.
  */
  predicate Agrees(e: Entry, sheet: seq<Row>) {
    e.index < |sheet| && sheet[e.index].(sale := e.row.sale) == e.row
  }

  /**
    The state every command keeps: the snapshot lists sheet positions in
    order, each agreeing with its sheet row, and nothing is shown before a
    sheet is loaded.
  */
  predicate WellFormed(app: App) {
    && Ascending(app.view)
    && (forall e :: e in app.view ==> Agrees(e, app.sheet))
    && (!app.loaded ==> app.sheet == [] && app.view == [])
  }

  lemma CopiesAgree(view: seq<Entry>, sheet: seq<Row>)
    requires CopiedFrom(view, sheet)
    ensures forall e :: e in view ==> Agrees(e, sheet)
  {
    forall e | e in view
      ensures Agrees(e, sheet)
    {
      assert sheet[e.index] == e.row;
    }
  }

  /** The application at start-up, with the margin and supplier from the configuration. */
  function Start(margin: real, supplierId: Option<string>, apiConfigured: bool): (app: App)
    ensures WellFormed(app) && !app.loaded && app.cache == map[]
  {
    App(false, [], [], false, map[], margin, map[], supplierId, apiConfigured)
  }

  /** The distinct groups present in a sheet; rows without a group contribute none. */
  function Groups(sheet: seq<Row>): (groups: set<string>)
    ensures forall i :: 0 <= i < |sheet| && sheet[i].group.Some? ==> sheet[i].group.value in groups
    ensures forall g :: g in groups ==> exists i :: 0 <= i < |sheet| && sheet[i].group == Some(g)
  {
    set i | 0 <= i < |sheet| && sheet[i].group.Some? :: sheet[i].group.value
  }

  /** `filter_and_display`: recompute the snapshot, or nothing before a sheet is loaded. */
  function Refilter(app: App): (next: App)
    ensures !app.loaded ==> next == app
    ensures app.loaded ==> next == app.(view := FilterRows(app.sheet, app.hasGroupColumn, app.checks))
    ensures app.loaded ==> WellFormed(next) && CopiedFrom(next.view, next.sheet)
  {
    if !app.loaded then app
    else
      var next := app.(view := FilterRows(app.sheet, app.hasGroupColumn, app.checks));
      CopiesAgree(next.view, next.sheet);
      next
  }

  /**
    `load_excel` once the file is read: the sale prices from the current
    margin, one ticked box per distinct group when the sheet has a group
    column, then the snapshot. The cache is kept.
  */
  function Load(app: App, rows: seq<Row>, hasGroupColumn: bool): (next: App)
    ensures WellFormed(next) && next.loaded && CopiedFrom(next.view, next.sheet)
    ensures next.sheet == ApplyMargin(rows, app.margin)
    ensures hasGroupColumn ==> next.checks.Keys == Groups(rows) && forall g :: g in next.checks ==> next.checks[g]
    ensures !hasGroupColumn ==> next.checks == map[]
    ensures next.cache == app.cache && next.margin == app.margin
    ensures next.supplierId == app.supplierId && next.apiConfigured == app.apiConfigured
    ensures next.hasGroupColumn == hasGroupColumn && next.view == FilterRows(next.sheet, hasGroupColumn, next.checks)
  {
    var sheet := ApplyMargin(rows, app.margin);
    assert Groups(sheet) == Groups(rows);
    var checks := if hasGroupColumn then map g | g in Groups(sheet) :: true else map[];
    Refilter(App(true, sheet, [], hasGroupColumn, checks, app.margin, app.cache, app.supplierId, app.apiConfigured))
  }

  /**
    Right after a load every row with a group is shown, and a row without a
    group is shown only when no row has one.
  */
  lemma LoadShowsGroupedRows(app: App, rows: seq<Row>, hasGroupColumn: bool, i: nat)
    requires i < |rows|
    ensures var next := Load(app, rows, hasGroupColumn);
            Entry(i, next.sheet[i]) in next.view
            <==> rows[i].group.Some? || !hasGroupColumn || Groups(rows) == {}
  {
    var next := Load(app, rows, hasGroupColumn);
    if hasGroupColumn && Groups(rows) != {} {
      assert |next.checks| > 0 by {
        var g :| g in Groups(rows);
        assert g in next.checks;
      }
      assert Ticked(next.sheet[i], next.checks) <==> rows[i].group.Some?;
    }
  }

  /** Ticking or unticking one group box, then refiltering. */
  function SetCheck(app: App, group: string, on: bool): (next: App)
    requires WellFormed(app)
    ensures WellFormed(next)
    ensures group !in app.checks ==> next == app
    ensures group in app.checks ==>
              && next.checks == app.checks[group := on]
              && next.sheet == app.sheet && next.cache == app.cache
              && next.(view := app.view, checks := app.checks) == app
              && (app.loaded ==> CopiedFrom(next.view, next.sheet))
              && (app.loaded ==> next.view == FilterRows(app.sheet, app.hasGroupColumn, next.checks))
  {
    if group !in app.checks then app
    else Refilter(app.(checks := app.checks[group := on]))
  }

  /**
    Putting a box back the way it was undoes the toggle, provided the table
    was showing the current filter to begin with.
  */
  lemma SetCheckUndo(app: App, group: string, on: bool)
    requires WellFormed(app) && app.loaded && group in app.checks
    requires app.view == FilterRows(app.sheet, app.hasGroupColumn, app.checks)
    ensures SetCheck(SetCheck(app, group, on), group, app.checks[group]) == app
  {
    var toggled := SetCheck(app, group, on);
    assert toggled.checks[group := app.checks[group]] == app.checks;
  }

  /** `select_all_groups` and `deselect_all_groups`: every box set to `on`, then refiltering. */
  function SetAllChecks(app: App, on: bool): (next: App)
    requires WellFormed(app)
    ensures WellFormed(next)
    ensures next.checks.Keys == app.checks.Keys && forall g :: g in next.checks ==> next.checks[g] == on
    ensures next.sheet == app.sheet && next.cache == app.cache
    ensures app.loaded ==> CopiedFrom(next.view, next.sheet)
    ensures next.(checks := app.checks, view := app.view) == app
    ensures app.loaded ==> next.view == FilterRows(app.sheet, app.hasGroupColumn, next.checks)
    ensures app.loaded && app.hasGroupColumn && |app.checks| > 0 && !on ==> next.view == []
    ensures app.loaded && on ==> forall i :: 0 <= i < |app.sheet| ==>
              (Entry(i, app.sheet[i]) in next.view <==>
                 !app.hasGroupColumn || |app.checks| == 0 || (app.sheet[i].group.Some? && app.sheet[i].group.value in app.checks))
  {
    var checks := map g | g in app.checks :: on;
    assert |checks| == |app.checks| by {
      assert checks.Keys == app.checks.Keys;
    }
    Refilter(app.(checks := checks))
  }

  /** With every box unticked, both the API update and the SQL script abort before doing anything. */
  lemma DeselectAllBlocksBatch(app: App)
    requires WellFormed(app) && app.loaded && app.hasGroupColumn && |app.checks| > 0
    ensures PrepareBatch(SetAllChecks(app, false).view) == Failure(NothingSelected)
  {
  }

  /** `apply_margin`: every sale price recomputed from the current margin, then refiltering. */
  function ApplyMarginCommand(app: App): (next: App)
    requires WellFormed(app)
    ensures WellFormed(next)
    ensures !app.loaded ==> next == app
    ensures app.loaded ==>
              && next.sheet == ApplyMargin(app.sheet, app.margin)
              && CopiedFrom(next.view, next.sheet)
              && next.checks == app.checks && next.cache == app.cache
              && next.view == FilterRows(next.sheet, app.hasGroupColumn, app.checks)
              && next.(sheet := app.sheet, view := app.view) == app
  {
    if !app.loaded then app
    else Refilter(app.(sheet := ApplyMargin(app.sheet, app.margin)))
  }

  /** Applying the margin a second time changes nothing. */
  lemma ApplyMarginTwice(app: App)
    requires WellFormed(app)
    ensures ApplyMarginCommand(ApplyMarginCommand(app)) == ApplyMarginCommand(app)
  {
    LastMarginWins(app.sheet, app.margin, app.margin);
  }

  /**
    Applying the margin after a manual edit gives the same application as
    applying it without the edit: the edit is lost from the sheet and the
    table alike.
  */
  lemma ApplyMarginErasesEdit(app: App, index: nat, input: string)
    requires WellFormed(app)
    requires EditPrice(app, index, Some(input)).Success?
    ensures ApplyMarginCommand(EditPrice(app, index, Some(input)).value) == ApplyMarginCommand(app)
  {
    MarginOverwritesEdit(app.sheet, index, input, app.margin);
  }

  /** Turning the margin spin box: nothing is recomputed until the margin is applied. */
  function SetMargin(app: App, margin: real): (next: App)
    requires WellFormed(app)
    ensures WellFormed(next)
    ensures next.margin == margin
    ensures next.sheet == app.sheet && next.view == app.view && next.cache == app.cache
    ensures next.(margin := app.margin) == app
  {
    app.(margin := margin)
  }

  /**
    `edit_price`: a cancelled dialog changes nothing; otherwise the typed
    price replaces the sale price of the sheet row. The snapshot shown in the
    table is not recomputed.
  */
  function EditPrice(app: App, index: nat, answer: Option<string>): (r: Result<App, EditError>)
    requires WellFormed(app)
    ensures r.Success? ==> WellFormed(r.value)
    ensures answer.None? ==> r == Success(app)
    ensures answer.Some? ==> (r.Success? <==> index < |app.sheet| && ParsePrice(answer.value).Some?)
    ensures answer.Some? && r.Success? ==>
              && r.value.sheet == app.sheet[index := app.sheet[index].(sale := ParsePrice(answer.value).value)]
              && r.value.view == app.view && r.value.checks == app.checks && r.value.cache == app.cache
              && r.value.margin == app.margin && r.value.loaded == app.loaded
    ensures answer.Some? && r.Success? ==> r.value.(sheet := app.sheet) == app
  {
    match answer
    case None => Success(app)
    case Some(text) =>
      match EditSale(app.sheet, index, text)
      case Failure(e) => Failure(e)
      case Success(sheet) =>
        var next := app.(sheet := sheet);
        assert forall e :: e in app.view ==> Agrees(e, sheet) by {
          forall e | e in app.view
            ensures Agrees(e, sheet)
          {
            assert Agrees(e, app.sheet);
          }
        }
        Success(next)
  }

  /**
    The rows `update_via_api` hands to the update loop, as written: the priced
    part of the snapshot, each row as the snapshot holds it.
  */
  function ApiBatchAsWritten(app: App): (r: Result<seq<Entry>, BatchError>)
    requires WellFormed(app)
    ensures |app.view| == 0 ==> r == Failure(NothingSelected)
    ensures |app.view| > 0 && (forall e :: e in app.view ==> e.row.purchase <= 0.0) ==> r == Failure(NothingPriced)
    ensures r.Failure? <==> |app.view| == 0 || forall e :: e in app.view ==> e.row.purchase <= 0.0
    ensures r.Success? ==> |r.value| > 0 && forall e :: e in r.value <==> e in app.view && e.row.purchase > 0.0
    ensures r.Success? ==> Ascending(r.value)
  {
    PricedKeepsOrder(app.view);
    PrepareBatch(app.view)
  }

  /** Each entry re-read from the sheet at its position. */
  function Refresh(batch: seq<Entry>, sheet: seq<Row>): (refreshed: seq<Entry>)
    requires forall e :: e in batch ==> e.index < |sheet|
    ensures |refreshed| == |batch|
    ensures forall k :: 0 <= k < |batch| ==> refreshed[k] == Entry(batch[k].index, sheet[batch[k].index])
  {
    seq(|batch|, k requires 0 <= k < |batch| => Entry(batch[k].index, sheet[batch[k].index]))
  }

  /**
    The rows the update loop should receive: the same positions as the
    priced part of the snapshot, each read from the sheet the way the SQL
    script reads it, so that a manual edit reaches the shop.
  */
  function ApiBatch(app: App): (r: Result<seq<Entry>, BatchError>)
    requires WellFormed(app)
    ensures r.Failure? <==> PrepareBatch(app.view).Failure?
    ensures r.Failure? ==> r == PrepareBatch(app.view)
    ensures r.Success? ==>
              && |r.value| == |PrepareBatch(app.view).value| > 0
              && CopiedFrom(r.value, app.sheet)
              && forall k :: 0 <= k < |r.value| ==>
                   && r.value[k].index == PrepareBatch(app.view).value[k].index
                   && r.value[k].row == app.sheet[r.value[k].index]
                   && r.value[k].row.purchase > 0.0
  {
    match PrepareBatch(app.view)
    case Failure(e) => Failure(e)
    case Success(batch) =>
      RefreshBatch(app, batch);
      Success(Refresh(batch, app.sheet))
  }

  /** Re-reading a batch of the snapshot from the sheet keeps its positions and its priced rows. */
  lemma RefreshBatch(app: App, batch: seq<Entry>)
    requires WellFormed(app) && PrepareBatch(app.view) == Success(batch)
    ensures forall e :: e in batch ==> e.index < |app.sheet|
    ensures var refreshed := Refresh(batch, app.sheet);
            && CopiedFrom(refreshed, app.sheet)
            && forall k :: 0 <= k < |refreshed| ==> refreshed[k].row.purchase > 0.0
  {
    forall e | e in batch
      ensures e.index < |app.sheet| && app.sheet[e.index].purchase == e.row.purchase > 0.0
    {
      assert e in app.view && Agrees(e, app.sheet);
    }
    var refreshed := Refresh(batch, app.sheet);
    forall k | 0 <= k < |refreshed|
      ensures refreshed[k].index < |app.sheet| && app.sheet[refreshed[k].index] == refreshed[k].row
      ensures refreshed[k].row.purchase > 0.0
    {
      assert batch[k] in batch;
    }
  }

  /** Without a pending edit the two batches coincide. */
  lemma FreshSnapshotSameBatch(app: App)
    requires WellFormed(app) && CopiedFrom(app.view, app.sheet)
    ensures ApiBatch(app) == ApiBatchAsWritten(app)
  {
    if PrepareBatch(app.view).Success? {
      var batch := PrepareBatch(app.view).value;
      assert forall k :: 0 <= k < |batch| ==> batch[k] in app.view;
      assert ApiBatch(app).value == batch;
    }
  }

  /** As written, a manual edit never reaches the update loop: its batch is exactly what it was before. */
  lemma EditBypassesApiBatchAsWritten(app: App, index: nat, answer: Option<string>)
    requires WellFormed(app)
    requires EditPrice(app, index, answer).Success?
    ensures ApiBatchAsWritten(EditPrice(app, index, answer).value) == ApiBatchAsWritten(app)
  {
  }

  /**
    A concrete case: one row bought at 10 with the default 12% margin, edited
    by hand to 12. The sheet and the SQL script carry 12, while the update
    loop, as written, pushes 11.2.
  */
  lemma StaleEditReachesShop()
    ensures var loaded := Load(Start(12.0, Some("7"), true), [Row("A", 10.0, None, 0.0)], false);
            var edited := EditPrice(loaded, 0, Some("12"));
            && edited.Success?
            && edited.value.sheet[0].sale == 12.0
            && ApiBatchAsWritten(edited.value) == Success([Entry(0, Row("A", 10.0, None, 11.2))])
            && ApiBatch(edited.value) == Success([Entry(0, Row("A", 10.0, None, 12.0))])
  {
    assert HasPlaces(11.2, 3) by {
      assert Pow10(3) == 1000 by {
        assert Pow10(1) == 10;
        assert Pow10(2) == 100;
      }
      assert Shift(11.2, 3) == 11200.0;
    }
    RoundKeepsExact(11.2, 3);
    assert MarginPrice(10.0, 12.0) == 11.2;
    var loaded := Load(Start(12.0, Some("7"), true), [Row("A", 10.0, None, 0.0)], false);
    assert loaded.sheet == [Row("A", 10.0, None, 11.2)];
    assert loaded.view == [Entry(0, Row("A", 10.0, None, 11.2))];
    TwelveReads();
    var edited := EditPrice(loaded, 0, Some("12"));
    assert edited.value.sheet == [Row("A", 10.0, None, 12.0)];
    var batch := PrepareBatch(loaded.view);
    assert batch == Success(loaded.view) by {
      assert Priced(loaded.view) == loaded.view by {
        assert loaded.view[..0] == [];
      }
    }
    assert edited.value.view == loaded.view;
    assert ApiBatchAsWritten(edited.value) == Success([Entry(0, Row("A", 10.0, None, 11.2))]);
    var refreshed := ApiBatch(edited.value).value;
    assert |refreshed| == 1 && refreshed[0] == Entry(0, Row("A", 10.0, None, 12.0));
    assert refreshed == [Entry(0, Row("A", 10.0, None, 12.0))];
  }

  lemma TwelveReads()
    ensures ParsePrice("12") == Some(12.0)
  {
    assert NormalizeSeparator("12") == "" + "12";
    UnsignedOfDigits("12");
    assert DigitsValue("12") == 12 by {
      assert "12"[..1] == "1";
    }
    SignedParse("", "12", 12.0);
  }

  /**
    With the corrected batch, a manual edit of a row in the batch is what the
    update loop pushes for that row, and the batch keeps its positions.
  */
  lemma EditReachesApiBatch(app: App, index: nat, input: string)
    requires WellFormed(app)
    requires EditPrice(app, index, Some(input)).Success?
    ensures var next := EditPrice(app, index, Some(input)).value;
            && (ApiBatch(next).Success? <==> ApiBatch(app).Success?)
            && (ApiBatch(app).Success? ==>
                  && |ApiBatch(next).value| == |ApiBatch(app).value|
                  && forall k :: 0 <= k < |ApiBatch(app).value| ==>
                       && ApiBatch(next).value[k].index == ApiBatch(app).value[k].index
                       && (ApiBatch(next).value[k].index == index ==>
                             ApiBatch(next).value[k].row.sale == ParsePrice(input).value)
                       && (ApiBatch(next).value[k].index != index ==>
                             ApiBatch(next).value[k] == ApiBatch(app).value[k]))
  {
    var next := EditPrice(app, index, Some(input)).value;
    if PrepareBatch(app.view).Success? {
      var batch := PrepareBatch(app.view).value;
      forall k | 0 <= k < |batch|
        ensures ApiBatch(next).value[k].row == next.sheet[batch[k].index]
        ensures ApiBatch(app).value[k].row == app.sheet[batch[k].index]
      {
      }
    }
  }

  /** Why `update_via_api` stops before the loop. */
  datatype ApiAbort = NotConfigured | NoBatch(reason: BatchError) | Declined

  /** What the loop reports: the three counters and the log lines. */
  datatype Report = Report(updated: nat, skipped: nat, errors: nat, log: seq<LogLine>)

  /**
    `update_via_api`, then `_do_update` run to completion: no configured
    shop, an empty snapshot, a snapshot without a positive purchase price or
    a declined confirmation stop it with nothing sent; otherwise every row of
    the batch goes through the loop and the application keeps the grown
    cache. `stamp` is the clock reading, `catalog` the shop's replies and
    `show` the text Python gives a price.
  */
  method UpdateViaApi(app: App, confirmed: bool, stamp: string, catalog: Request -> Reply, show: real -> string)
    returns (next: App, r: Result<Report, ApiAbort>)
    requires WellFormed(app)
    ensures WellFormed(next)
    ensures !app.apiConfigured ==> r == Failure(NotConfigured)
    ensures app.apiConfigured && PrepareBatch(app.view).Failure? ==> r == Failure(NoBatch(PrepareBatch(app.view).error))
    ensures app.apiConfigured && PrepareBatch(app.view).Success? && !confirmed ==> r == Failure(Declined)
    ensures r.Failure? ==> next == app
    ensures r.Success? <==> app.apiConfigured && PrepareBatch(app.view).Success? && confirmed
    ensures r.Success? ==>
              var batch := ApiBatch(app).value;
              var run := Run(batch, app.cache, ShopContext(app.supplierId, catalog, show));
              && Totals(r.value.updated, r.value.skipped, r.value.errors) == Tally(run.outcomes)
              && r.value.updated + r.value.skipped + r.value.errors == |batch|
              && |r.value.log| == |batch| + 2
              && r.value.log[0] == Title(stamp) && r.value.log[1] == Summary(|batch|, app.margin)
              && (forall j :: 0 <= j < |batch| ==> r.value.log[j + 2] == RowLine(batch[j].row, run.outcomes[j]))
              && next == app.(cache := run.cache)
  {
    next := app;
    if !app.apiConfigured {
      return next, Failure(NotConfigured);
    }
    var prepared := ApiBatch(app);
    if prepared.Failure? {
      return next, Failure(NoBatch(prepared.error));
    }
    if !confirmed {
      return next, Failure(Declined);
    }
    var updated, skipped, errors, log, cache :=
      DoUpdate(prepared.value, app.margin, stamp, app.cache, ShopContext(app.supplierId, catalog, show));
    next := app.(cache := cache);
    r := Success(Report(updated, skipped, errors, log));
  }

  /** Every snapshot entry names a sheet row. */
  lemma ViewInSheet(app: App)
    requires WellFormed(app)
    ensures forall e :: e in app.view ==> e.index < |app.sheet|
  {
    forall e | e in app.view
      ensures e.index < |app.sheet|
    {
      assert Agrees(e, app.sheet);
    }
  }

  /**
    `generate_sql` on the application: it stops when the snapshot gives no
    batch, then when no supplier id is configured or typed in.
  */
  function GenerateSqlCommand(app: App, asked: Option<string>, stamp: string): (r: Result<seq<SqlLine>, GenerateError>)
    requires WellFormed(app)
    ensures r.Failure? <==> ApiBatch(app).Failure? || SupplierFor(app.supplierId, asked).Failure?
    ensures ApiBatch(app).Failure? ==> r == Failure(Batch(ApiBatch(app).error))
    ensures ApiBatch(app).Success? && SupplierFor(app.supplierId, asked).Failure? ==> r == Failure(Supplier(NoSupplierId))
  {
    ViewInSheet(app);
    GenerateSql(stamp, app.margin, app.sheet, app.view, app.supplierId, asked)
  }

  /**
    The script lists, in batch order, the same rows with the same sale
    prices that the update loop receives, one UPDATE each, plus the final
    synchronisation.
  */
  lemma SqlMatchesApiBatch(app: App, asked: Option<string>, stamp: string)
    requires WellFormed(app)
    requires GenerateSqlCommand(app, asked, stamp).Success?
    ensures var lines := GenerateSqlCommand(app, asked, stamp).value;
            var batch := ApiBatch(app).value;
            var supplier := SupplierFor(app.supplierId, asked).value;
            && |lines| == |batch| + 8
            && StatementLines(lines) == |batch| + 1
            && StatementCount(RenderAll(lines)) == |batch| + 1
            && forall k :: 0 <= k < |batch| ==>
                 lines[5 + k] == SetPrice(batch[k].row.sku, batch[k].row.sale, supplier)
  {
    ViewInSheet(app);
    var batch := PrepareBatch(app.view).value;
    var supplier := SupplierFor(app.supplierId, asked).value;
    assert forall e :: e in batch ==> e.index < |app.sheet|;
    var lines := Script(stamp, app.margin, app.sheet, batch, supplier);
    assert GenerateSqlCommand(app, asked, stamp).value == lines;
    ScriptShape(stamp, app.margin, app.sheet, batch, supplier);
    ScriptStatementCount(stamp, app.margin, app.sheet, batch, supplier);
    var refreshed := ApiBatch(app).value;
    forall k | 0 <= k < |refreshed|
      ensures lines[5 + k] == SetPrice(refreshed[k].row.sku, refreshed[k].row.sale, supplier)
    {
      assert refreshed[k].row == app.sheet[batch[k].index];
    }
  }

  /**
    The script reads the spin box when it is written: after turning it
    without applying, only the margin comment changes, while every price is
    still the one the sheet holds.
  */
  lemma SpinBoxOnlyRelabels(app: App, margin: real, asked: Option<string>, stamp: string)
    requires WellFormed(app)
    requires GenerateSqlCommand(app, asked, stamp).Success?
    ensures var before := GenerateSqlCommand(app, asked, stamp).value;
            var after := GenerateSqlCommand(SetMargin(app, margin), asked, stamp);
            && after.Success?
            && |before| > 1
            && after.value == before[1 := MarginNote(margin)]
  {
    var next := SetMargin(app, margin);
    ViewInSheet(app);
    var batch := PrepareBatch(app.view).value;
    var supplier := SupplierFor(app.supplierId, asked).value;
    assert GenerateSqlCommand(app, asked, stamp).value == Script(stamp, app.margin, app.sheet, batch, supplier);
    assert GenerateSqlCommand(next, asked, stamp).value == Script(stamp, margin, app.sheet, batch, supplier);
    ScriptRelabel(stamp, app.margin, margin, app.sheet, batch, supplier);
  }

  /** The three rows of the worked example: A2 has no purchase price. */
  const ExampleRows: seq<Row> :=
    [Row("A1", 10.0, None, 0.0), Row("A2", 0.0, None, 0.0), Row("A3", 20.0, None, 0.0)]

  /** The example sheet loaded with a 10% margin and no group column. */
  function ExampleApp(): App {
    Load(Start(10.0, None, true), ExampleRows, false)
  }

  const ExampleA1: Entry := Entry(0, Row("A1", 10.0, None, 11.0))
  const ExampleA2: Entry := Entry(1, Row("A2", 0.0, None, 0.0))
  const ExampleA3: Entry := Entry(2, Row("A3", 20.0, None, 22.0))

  /** Loading the example gives sale prices 11, 0 and 22, all rows shown. */
  lemma ExampleLoaded()
    ensures ExampleApp().sheet == [ExampleA1.row, ExampleA2.row, ExampleA3.row]
    ensures ExampleApp().view == [ExampleA1, ExampleA2, ExampleA3]
  {
    ExampleSheet();
    var sheet := ExampleApp().sheet;
    var view := ExampleApp().view;
    assert view == FilterRows(sheet, false, map[]);
    assert |view| == 3 && view[0] == ExampleA1 && view[1] == ExampleA2 && view[2] == ExampleA3;
  }

  /** The example sheet after the 10% margin. */
  lemma ExampleSheet()
    ensures ApplyMargin(ExampleRows, 10.0) == [ExampleA1.row, ExampleA2.row, ExampleA3.row]
  {
    var sheet := ApplyMargin(ExampleRows, 10.0);
    var a, b, c := MarginPrice(10.0, 10.0), MarginPrice(0.0, 10.0), MarginPrice(20.0, 10.0);
    assert |sheet| == 3 && sheet[0].sale == a && sheet[1].sale == b && sheet[2].sale == c;
    assert a == 11.0 && b == 0.0 && c == 22.0 by {
      ExampleMargins();
    }
    assert sheet[0] == ExampleA1.row && sheet[1] == ExampleA2.row && sheet[2] == ExampleA3.row;
  }

  /** A 10% margin on 10, 0 and 20. */
  lemma ExampleMargins()
    ensures MarginPrice(10.0, 10.0) == 11.0
    ensures MarginPrice(0.0, 10.0) == 0.0
    ensures MarginPrice(20.0, 10.0) == 22.0
  {
    assert Pow10(3) == 1000 by {
      assert Pow10(1) == 10;
      assert Pow10(2) == 100;
    }
    assert HasPlaces(11.0, 3) && HasPlaces(22.0, 3) && HasPlaces(0.0, 3);
    RoundKeepsExact(11.0, 3);
    RoundKeepsExact(22.0, 3);
    RoundKeepsExact(0.0, 3);
  }

  /** Only A1 and A3 have a positive purchase price. */
  lemma ExamplePriced()
    ensures Priced([ExampleA1, ExampleA2, ExampleA3]) == [ExampleA1, ExampleA3]
  {
    var view := [ExampleA1, ExampleA2, ExampleA3];
    PricedStep(view);
    assert view[..2] == [ExampleA1, ExampleA2];
    PricedStep([ExampleA1, ExampleA2]);
    assert [ExampleA1, ExampleA2][..1] == [ExampleA1];
    PricedStep([ExampleA1]);
    assert [ExampleA1][..0] == [];
  }

  /** One unfolding of `Priced` at the last entry. */
  lemma PricedStep(view: seq<Entry>)
    requires |view| > 0
    ensures Priced(view) == Priced(view[..|view| - 1])
                            + (if view[|view| - 1].row.purchase > 0.0 then [view[|view| - 1]] else [])
  {
  }

  /** The example batch is A1 then A3. */
  lemma ExampleBatch()
    ensures ApiBatch(ExampleApp()) == Success([ExampleA1, ExampleA3])
  {
    var app := ExampleApp();
    ExampleLoaded();
    ExamplePriced();
    FreshSnapshotSameBatch(app);
  }

  /**
    The worked example run against a shop where A1 is product 100 and
    accepts the price while A3 is unknown: A1 updated, A2 never sent, A3
    skipped, and only A1 remembered.
  */
  lemma ExampleRun(ctx: Context)
    requires ctx.lookup("A1") == Some("100") && ctx.lookup("A3") == None
    requires ctx.push("100", 11.0).0
    ensures var run := Run(ApiBatch(ExampleApp()).value, map[], ctx);
            && run.outcomes == [Updated, Skipped]
            && Tally(run.outcomes) == Totals(1, 1, 0)
            && run.cache == map["A1" := "100"]
  {
    ExampleBatch();
    ExampleBatchRun(ctx);
  }

  lemma ExampleBatchRun(ctx: Context)
    requires ctx.lookup("A1") == Some("100") && ctx.lookup("A3") == None
    requires ctx.push("100", 11.0).0
    ensures var run := Run([ExampleA1, ExampleA3], map[], ctx);
            && run.outcomes == [Updated, Skipped]
            && Tally(run.outcomes) == Totals(1, 1, 0)
            && run.cache == map["A1" := "100"]
  {
    var batch := [ExampleA1, ExampleA3];
    NextRow(batch, 0, map[], ctx);
    ExampleFirstRow(ctx);
    NextRow(batch, 1, map[], ctx);
    ExampleSecondRow(ctx);
    TallyAppend([], Updated);
    TallyAppend([Updated], Skipped);
    assert [] + [Updated] == [Updated] && [Updated] + [Skipped] == [Updated, Skipped];
  }

  lemma ExampleFirstRow(ctx: Context)
    requires ctx.lookup("A1") == Some("100") && ctx.push("100", 11.0).0
    ensures ProcessRow(ExampleA1.row, map[], ctx) == RowStep(Updated, map["A1" := "100"], true)
  {
    assert ResolveId("A1", map[], ctx) == Some("100");
  }

  lemma ExampleSecondRow(ctx: Context)
    requires ctx.lookup("A3") == None
    ensures ProcessRow(ExampleA3.row, map["A1" := "100"], ctx) == RowStep(Skipped, map["A1" := "100"], true)
  {
    assert "A3" !in map["A1" := "100"];
  }

  /**
    The script for the worked example holds one statement for A1 at 11 and
    one for A3 at 22, although the shop does not know A3, and none for A2.
  */
  lemma ExampleScript(stamp: string)
    ensures var r := GenerateSqlCommand(ExampleApp(), Some("7"), stamp);
            && r.Success?
            && |r.value| == 10
            && StatementLines(r.value) == 3
            && r.value[5] == SetPrice("A1", 11.0, "7")
            && r.value[6] == SetPrice("A3", 22.0, "7")
  {
    ExampleBatch();
    ScriptOfExampleBatch(ExampleApp(), stamp);
  }

  lemma ScriptOfExampleBatch(app: App, stamp: string)
    requires WellFormed(app) && app.supplierId.None?
    requires ApiBatch(app) == Success([ExampleA1, ExampleA3])
    ensures var r := GenerateSqlCommand(app, Some("7"), stamp);
            && r.Success?
            && |r.value| == 10
            && StatementLines(r.value) == 3
            && r.value[5] == SetPrice("A1", 11.0, "7")
            && r.value[6] == SetPrice("A3", 22.0, "7")
  {
    assert SupplierFor(app.supplierId, Some("7")) == Success("7");
    var batch := ApiBatch(app).value;
    assert |batch| == 2;
    var r := GenerateSqlCommand(app, Some("7"), stamp);
    SqlMatchesApiBatch(app, Some("7"), stamp);
    assert r.value[5] == SetPrice(batch[0].row.sku, batch[0].row.sale, "7");
    assert r.value[6] == SetPrice(batch[1].row.sku, batch[1].row.sale, "7");
  }
}

=== FILE: catalog.dfy ===
/**
  The shop's web-service client: finding a product from a supplier SKU, and
  rewriting one product's price through the `POST ... ?ps_method=PUT`
  work-around. The shop itself is an oracle `catalog` that answers every
  request; a transport or parse exception is part of its answer.
*/
module Catalog {
  import opened Wrappers
  import opened DecimalText

  /**
    A direct child of a record element: its tag, its text (absent for an
    empty element) and whatever nested markup it carries, kept verbatim.
  */
  datatype Child = Child(tag: string, text: Option<string>, inner: string)

  /** A record element (`product`, `product_supplier`) and its children. */
  datatype Element = Element(tag: string, children: seq<Child>)

  /**
    A response body: either text the XML parser rejects (with the parser's
    message) or the record elements of the document, in document order.
  */
  datatype Body = Malformed(reason: string) | Doc(elements: seq<Element>)

  /** What the shop answers: an exception raised by the transport, or a status and a body. */
  datatype Reply = Raised(reason: string) | Answer(status: nat, body: Body)

  /** A request to the web service; paths are relative to the service root. */
  datatype Request =
    | Get(path: string, query: seq<(string, string)>)
    | Post(path: string, payload: seq<Element>)

  /** Fields the service refuses to be written back; they are dropped before the PUT. */
  const ReadOnlyTags: seq<string> :=
    ["manufacturer_name", "quantity", "position_in_category", "type", "date_add", "date_upd", "associations"]

  /** First strategy: the products whose supplier reference is the SKU. */
  function ByReference(sku: string): Request {
    Get("products", [("display", "[id,reference,supplier_reference]"), ("filter[supplier_reference]", sku)])
  }

  /** Second strategy: the product-supplier links for the SKU and this supplier. */
  function BySupplier(sku: string, supplierId: string): Request {
    Get("product_suppliers",
      [("display", "[id,id_product,product_supplier_reference]"),
       ("filter[product_supplier_reference]", sku),
       ("filter[id_supplier]", supplierId)])
  }

  function ProductPath(id: string): string {
    "products/" + id
  }

  function PutPath(id: string): string {
    "products/" + id + "?ps_method=PUT"
  }

  // ---------------------------------------------------------------------
  // Finding elements and children
  // ---------------------------------------------------------------------

  function ElementTag(e: Element): string {
    e.tag
  }

  function ChildTag(c: Child): string {
    c.tag
  }

  /**
    Position of the first item whose tag is `tag`: the first record element
    for `root.find('.//tag')` (with `ElementTag`), the first child for
    `element.find(tag)` (with `ChildTag`).
  */
  function FirstWith<T>(items: seq<T>, tagOf: T -> string, tag: string): (k: Option<nat>)
    ensures k.Some? ==> k.value < |items| && tagOf(items[k.value]) == tag
    ensures k.Some? ==> forall j :: 0 <= j < k.value ==> tagOf(items[j]) != tag
    ensures k.None? ==> forall j :: 0 <= j < |items| ==> tagOf(items[j]) != tag
  {
    if |items| == 0 then None
    else if tagOf(items[0]) == tag then Some(0)
    else match FirstWith(items[1..], tagOf, tag)
      case None => None
      case Some(k) => Some(k + 1)
  }

  /** How many children carry the tag. */
  function Count(children: seq<Child>, tag: string): nat {
    if |children| == 0 then 0
    else (if children[0].tag == tag then 1 else 0) + Count(children[1..], tag)
  }

  /** The children whose tag is not in `tags`, in order. */
  function Without(children: seq<Child>, tags: set<string>): (kept: seq<Child>)
    ensures forall c :: c in kept <==> c in children && c.tag !in tags
  {
    if |children| == 0 then []
    else (if children[0].tag in tags then [] else [children[0]]) + Without(children[1..], tags)
  }

  // ---------------------------------------------------------------------
  // Lookup by supplier reference
  // ---------------------------------------------------------------------

  /**
    What one search request yields. `Crash` is an exception inside the
    `try` (transport failure, unparsable body, record without the id child);
    `Miss` is a non-200 status or no record; `Hit` carries the id child's text.
  */
  datatype Probe = Crash | Miss | Hit(id: Option<string>)

  function ReadProbe(reply: Reply, record: string, field: string): (p: Probe)
    ensures reply.Raised? ==> p == Crash
    ensures reply.Answer? && reply.status != 200 ==> p == Miss
    ensures reply.Answer? && reply.status == 200 && reply.body.Malformed? ==> p == Crash
    ensures reply.Answer? && reply.status == 200 && reply.body.Doc? ==>
              var elements := reply.body.elements;
              && (p == Miss <==> forall i :: 0 <= i < |elements| ==> elements[i].tag != record)
              && (FirstWith(elements, ElementTag, record).Some? ==>
                    var children := elements[FirstWith(elements, ElementTag, record).value].children;
                    && (p == Crash <==> forall j :: 0 <= j < |children| ==> children[j].tag != field)
                    && (FirstWith(children, ChildTag, field).Some? ==> p == Hit(children[FirstWith(children, ChildTag, field).value].text)))
  {
    match reply
    case Raised(_) => Crash
    case Answer(status, body) =>
      if status != 200 then Miss
      else match body
        case Malformed(_) => Crash
        case Doc(elements) =>
          match FirstWith(elements, ElementTag, record)
          case None => Miss
          case Some(k) =>
            match FirstWith(elements[k].children, ChildTag, field)
            case None => Crash
            case Some(j) => Hit(elements[k].children[j].text)
  }

  /** The product id found (if any) and the requests that were sent, in order. */
  datatype Lookup = Lookup(id: Option<string>, requests: seq<Request>)

  function ReferenceProbe(sku: string, catalog: Request -> Reply): Probe {
    ReadProbe(catalog(ByReference(sku)), "product", "id")
  }

  function SupplierProbe(sku: string, supplierId: string, catalog: Request -> Reply): Probe {
    ReadProbe(catalog(BySupplier(sku, supplierId)), "product_supplier", "id_product")
  }

  /**
    `get_product_by_supplier_ref`: search the products by supplier reference;
    only when that search misses, and a supplier id is configured, search the
    product-supplier links. Any exception ends the search with no id.
  */
  function FindProductId(sku: string, supplierId: Option<string>, catalog: Request -> Reply): (r: Lookup)
    ensures 1 <= |r.requests| <= 2 && r.requests[0] == ByReference(sku)
    ensures |r.requests| == 2 <==> ReferenceProbe(sku, catalog) == Miss && Truthy(supplierId)
    ensures |r.requests| == 2 ==> r.requests[1] == BySupplier(sku, supplierId.value)
    ensures ReferenceProbe(sku, catalog).Hit? ==> r.id == ReferenceProbe(sku, catalog).id
    ensures ReferenceProbe(sku, catalog) == Crash ==> r.id.None?
    ensures ReferenceProbe(sku, catalog) == Miss && !Truthy(supplierId) ==> r.id.None?
    ensures ReferenceProbe(sku, catalog) == Miss && Truthy(supplierId) ==>
              var second := SupplierProbe(sku, supplierId.value, catalog);
              && (second.Hit? ==> r.id == second.id)
              && (!second.Hit? ==> r.id.None?)
    ensures r.id.Some? ==>
              || ReferenceProbe(sku, catalog).Hit?
              || (&& ReferenceProbe(sku, catalog) == Miss && Truthy(supplierId)
                  && SupplierProbe(sku, supplierId.value, catalog).Hit?
                  && r.id == SupplierProbe(sku, supplierId.value, catalog).id)
  {
    var first := ReferenceProbe(sku, catalog);
    match first
    case Crash => Lookup(None, [ByReference(sku)])
    case Hit(id) => Lookup(id, [ByReference(sku)])
    case Miss =>
      if Truthy(supplierId) then
        var second := SupplierProbe(sku, supplierId.value, catalog);
        Lookup(if second.Hit? then second.id else None, [ByReference(sku), BySupplier(sku, supplierId.value)])
      else Lookup(None, [ByReference(sku)])
  }

  /**
    A product listed under the SKU is found from its first matching record,
    whatever supplier id is configured.
  */
  lemma ListedProductFound(sku: string, supplierId: Option<string>, catalog: Request -> Reply,
                           elements: seq<Element>, k: nat, j: nat)
    requires catalog(ByReference(sku)) == Answer(200, Doc(elements))
    requires FirstWith(elements, ElementTag, "product") == Some(k)
    requires FirstWith(elements[k].children, ChildTag, "id") == Some(j)
    ensures FindProductId(sku, supplierId, catalog) == Lookup(elements[k].children[j].text, [ByReference(sku)])
  {
  }

  /** The second strategy only runs when the first one missed. */
  lemma SupplierIgnoredUnlessMiss(sku: string, s1: Option<string>, s2: Option<string>, catalog: Request -> Reply)
    requires ReferenceProbe(sku, catalog) != Miss
    ensures FindProductId(sku, s1, catalog) == FindProductId(sku, s2, catalog)
  {
  }

  /** An absent or empty supplier id behaves exactly like no supplier id. */
  lemma EmptySupplierIsNone(sku: string, supplierId: Option<string>, catalog: Request -> Reply)
    requires !Truthy(supplierId)
    ensures FindProductId(sku, supplierId, catalog) == FindProductId(sku, None, catalog)
  {
  }

  /**
    When the first strategy misses and a supplier id is set, the answer is
    exactly what the product-supplier search yields.
  */
  lemma FallbackAnswers(sku: string, supplierId: string, catalog: Request -> Reply,
                        elements: seq<Element>, k: nat, j: nat)
    requires supplierId != ""
    requires ReferenceProbe(sku, catalog) == Miss
    requires catalog(BySupplier(sku, supplierId)) == Answer(200, Doc(elements))
    requires FirstWith(elements, ElementTag, "product_supplier") == Some(k)
    requires FirstWith(elements[k].children, ChildTag, "id_product") == Some(j)
    ensures FindProductId(sku, Some(supplierId), catalog).id == elements[k].children[j].text
  {
  }

  // ---------------------------------------------------------------------
  // Rewriting a product
  // ---------------------------------------------------------------------

  /** `element.remove(element.find(tag))` when such a child exists. */
  function RemoveFirst(children: seq<Child>, tag: string): (r: seq<Child>)
    ensures Count(children, tag) == 0 ==> r == children
    ensures Count(children, tag) > 0 ==> |r| == |children| - 1 && Count(r, tag) == Count(children, tag) - 1
    ensures forall other :: other != tag ==> Count(r, other) == Count(children, other)
    ensures FirstWith(children, ChildTag, tag).None? ==> r == children
    ensures FirstWith(children, ChildTag, tag).Some? ==>
              var k := FirstWith(children, ChildTag, tag).value;
              r == children[..k] + children[k + 1..]
  {
    if |children| == 0 then []
    else if children[0].tag == tag then children[1..]
    else
      FirstChildStep(children, tag);
      var rest := RemoveFirst(children[1..], tag);
      assert FirstWith(children[1..], ChildTag, tag).Some? ==>
               var k := FirstWith(children[1..], ChildTag, tag).value;
               children[..k + 1] + children[k + 2..] == [children[0]] + (children[1..][..k] + children[1..][k + 1..]);
      [children[0]] + rest
  }

  /** The first child with a tag, seen from the second child on. */
  lemma FirstChildStep(children: seq<Child>, tag: string)
    requires |children| > 0 && children[0].tag != tag
    ensures FirstWith(children[1..], ChildTag, tag).None? <==> FirstWith(children, ChildTag, tag).None?
    ensures FirstWith(children, ChildTag, tag).Some? ==> FirstWith(children, ChildTag, tag).value == FirstWith(children[1..], ChildTag, tag).value + 1
  {
    var whole := FirstWith(children, ChildTag, tag);
    var tail := FirstWith(children[1..], ChildTag, tag);
    if whole.Some? {
      assert children[1..][whole.value - 1].tag == tag;
    }
    if tail.Some? {
      assert children[tail.value + 1].tag == tag;
    }
  }

  /** Remove the first child of each listed tag, one tag after the other. */
  function StripTags(children: seq<Child>, tags: seq<string>): (r: seq<Child>)
    ensures forall other :: other !in tags ==> Count(r, other) == Count(children, other)
    ensures forall t :: t in tags && Count(children, t) <= 1 ==> Count(r, t) == 0
    decreases |tags|
  {
    if |tags| == 0 then children
    else
      var once := RemoveFirst(children, tags[0]);
      assert forall t :: t in tags[1..] && Count(children, t) <= 1 ==> Count(once, t) <= 1;
      StripTags(once, tags[1..])
  }

  /** The product's children once the read-only fields are gone. */
  function StripReadOnly(children: seq<Child>): (r: seq<Child>)
    ensures forall t :: t in ReadOnlyTags && Count(children, t) <= 1 ==> Count(r, t) == 0
    ensures forall t :: t !in ReadOnlyTags ==> Count(r, t) == Count(children, t)
  {
    StripTags(children, ReadOnlyTags)
  }

  /** The first child with the tag gets the text; with no such child nothing changes. */
  function SetFirstText(children: seq<Child>, tag: string, text: string): (r: seq<Child>)
    ensures |r| == |children|
    ensures forall i :: 0 <= i < |children| ==> r[i].tag == children[i].tag && r[i].inner == children[i].inner
    ensures FirstWith(children, ChildTag, tag).None? ==> r == children
    ensures FirstWith(children, ChildTag, tag).Some? ==>
              && r[FirstWith(children, ChildTag, tag).value].text == Some(text)
              && forall i :: 0 <= i < |children| && i != FirstWith(children, ChildTag, tag).value ==> r[i] == children[i]
  {
    match FirstWith(children, ChildTag, tag)
    case None => children
    case Some(k) => children[k := children[k].(text := Some(text))]
  }

  /** The product element as it is sent back. */
  function Rewrite(product: Element, priceText: string): (r: Element)
    ensures r.tag == product.tag
    ensures forall t :: t in ReadOnlyTags && Count(product.children, t) <= 1 ==> Count(r.children, t) == 0
    ensures forall t :: t !in ReadOnlyTags ==> Count(r.children, t) == Count(product.children, t)
    ensures FirstWith(r.children, ChildTag, "price").Some? ==> r.children[FirstWith(r.children, ChildTag, "price").value].text == Some(priceText)
  {
    var stripped := StripReadOnly(product.children);
    var sent := SetFirstText(stripped, "price", priceText);
    assert forall t :: Count(sent, t) == Count(stripped, t) by {
      forall t
        ensures Count(sent, t) == Count(stripped, t)
      {
        SameTagsSameCount(stripped, sent, t);
      }
    }
    FirstChildSameTags(stripped, sent, "price");
    product.(children := SetFirstText(StripReadOnly(product.children), "price", priceText))
  }

  /** The answer of `update_product_price` and the requests that produced it. */
  datatype PriceUpdate = PriceUpdate(ok: bool, message: string, requests: seq<Request>)

  /**
    `update_product_price`: fetch the product, drop its read-only fields, set
    its price to `show(price)` (Python's `str` of the price, a parameter here)
    and send the whole document back. Only status 200 on the write is success.
  */
  function UpdateProductPrice(id: string, price: real, show: real -> string, catalog: Request -> Reply): (r: PriceUpdate)
    ensures 1 <= |r.requests| <= 2 && r.requests[0] == Get(ProductPath(id), [])
    ensures |r.requests| == 2 ==> r.requests[1].Post? && r.requests[1].path == PutPath(id)
    ensures r.ok <==> |r.requests| == 2 && catalog(r.requests[1]).Answer? && catalog(r.requests[1]).status == 200
    ensures r.ok ==> r.message == "OK"
    ensures catalog(Get(ProductPath(id), [])).Answer? && catalog(Get(ProductPath(id), [])).status != 200 ==>
              r == PriceUpdate(false, "Produit " + id + " non trouvé", [Get(ProductPath(id), [])])
    ensures var g := Get(ProductPath(id), []);
            catalog(g).Raised? ==> r == PriceUpdate(false, catalog(g).reason, [g])
    ensures var g := Get(ProductPath(id), []);
            catalog(g).Answer? && catalog(g).status == 200 && catalog(g).body.Malformed? ==>
              r == PriceUpdate(false, catalog(g).body.reason, [g])
    ensures var g := Get(ProductPath(id), []);
            |r.requests| == 2 <==>
              catalog(g).Answer? && catalog(g).status == 200 && catalog(g).body.Doc?
              && FirstWith(catalog(g).body.elements, ElementTag, "product").Some?
  {
    var fetch := Get(ProductPath(id), []);
    match catalog(fetch)
    case Raised(reason) => PriceUpdate(false, reason, [fetch])
    case Answer(status, body) =>
      if status != 200 then PriceUpdate(false, "Produit " + id + " non trouvé", [fetch])
      else match body
        case Malformed(reason) => PriceUpdate(false, reason, [fetch])
        case Doc(elements) =>
          match FirstWith(elements, ElementTag, "product")
          case None => PriceUpdate(false, "'NoneType' object has no attribute 'find'", [fetch])
          case Some(k) =>
            Write(fetch, Post(PutPath(id), elements[k := Rewrite(elements[k], show(price))]), catalog)
  }

  /**
    The write that ends a price update: a failed call reports its reason,
    status 200 is success, any other status is reported by number.
  */
  function Write(fetch: Request, send: Request, catalog: Request -> Reply): (r: PriceUpdate)
    ensures r.requests == [fetch, send]
    ensures r.ok <==> catalog(send).Answer? && catalog(send).status == 200
    ensures catalog(send).Raised? ==> r.message == catalog(send).reason
    ensures catalog(send).Answer? && catalog(send).status != 200 ==>
              r.message == "Erreur " + NatToString(catalog(send).status)
  {
    match catalog(send)
    case Raised(reason) => PriceUpdate(false, reason, [fetch, send])
    case Answer(code, _) =>
      if code == 200 then PriceUpdate(true, "OK", [fetch, send])
      else PriceUpdate(false, "Erreur " + NatToString(code), [fetch, send])
  }

  /**
    Stripping the read-only fields touches nothing else: the other children
    survive, in their order.
  */
  lemma {:induction false} RemoveFirstKeepsOthers(children: seq<Child>, tag: string, tags: set<string>)
    requires tag in tags
    ensures Without(RemoveFirst(children, tag), tags) == Without(children, tags)
    decreases |children|
  {
    if |children| > 0 && children[0].tag != tag {
      RemoveFirstKeepsOthers(children[1..], tag, tags);
      assert ([children[0]] + RemoveFirst(children[1..], tag))[1..] == RemoveFirst(children[1..], tag);
    }
  }

  lemma {:induction false} StripTagsKeepsOthers(children: seq<Child>, tags: seq<string>, all: set<string>)
    requires forall t :: t in tags ==> t in all
    ensures Without(StripTags(children, tags), all) == Without(children, all)
    decreases |tags|
  {
    if |tags| > 0 {
      RemoveFirstKeepsOthers(children, tags[0], all);
      StripTagsKeepsOthers(RemoveFirst(children, tags[0]), tags[1..], all);
    }
  }

  /** A sequence with none of the tags is its own `Without`. */
  lemma {:induction false} WithoutAbsent(children: seq<Child>, tags: set<string>)
    requires forall t :: t in tags ==> Count(children, t) == 0
    ensures Without(children, tags) == children
    decreases |children|
  {
    if |children| > 0 {
      assert Count(children, children[0].tag) > 0;
      forall t | t in tags
        ensures Count(children[1..], t) == 0
      {
        assert Count(children, t) == (if children[0].tag == t then 1 else 0) + Count(children[1..], t);
      }
      WithoutAbsent(children[1..], tags);
    }
  }

  /**
    For a product listing each read-only field at most once (as the service
    does), stripping removes exactly the read-only fields and keeps the rest
    in order.
  */
  lemma StripReadOnlyIsWithout(children: seq<Child>)
    requires forall t :: t in ReadOnlyTags ==> Count(children, t) <= 1
    ensures StripReadOnly(children) == Without(children, set t | t in ReadOnlyTags)
  {
    var all := set t | t in ReadOnlyTags;
    StripTagsKeepsOthers(children, ReadOnlyTags, all);
    WithoutAbsent(StripReadOnly(children), all);
  }

  /**
    The rewritten product: its read-only fields gone, its first price child
    holding the new text, every other field unchanged and in order.
  */
  lemma RewriteDropsReadOnly(product: Element, priceText: string)
    requires forall t :: t in ReadOnlyTags ==> Count(product.children, t) <= 1
    ensures Rewrite(product, priceText).children
            == SetFirstText(Without(product.children, set t | t in ReadOnlyTags), "price", priceText)
    ensures forall t :: t in ReadOnlyTags ==> Count(Rewrite(product, priceText).children, t) == 0
  {
    StripReadOnlyIsWithout(product.children);
    var stripped := StripReadOnly(product.children);
    var sent := SetFirstText(stripped, "price", priceText);
    forall t | t in ReadOnlyTags
      ensures Count(sent, t) == 0
    {
      SameTagsSameCount(stripped, sent, t);
    }
  }

  /** Once the product is fetched and found, the update is the write of the rewritten document. */
  lemma FoundProductIsWritten(id: string, price: real, show: real -> string, catalog: Request -> Reply,
                              elements: seq<Element>, k: nat)
    requires catalog(Get(ProductPath(id), [])) == Answer(200, Doc(elements))
    requires FirstWith(elements, ElementTag, "product") == Some(k)
    ensures UpdateProductPrice(id, price, show, catalog)
            == Write(Get(ProductPath(id), []), Post(PutPath(id), elements[k := Rewrite(elements[k], show(price))]), catalog)
  {
  }

  /**
    What the write carries: the fetched document with its first product
    replaced by the rewritten one, sent to the PUT path.
  */
  lemma UpdateSendsRewrittenProduct(id: string, price: real, show: real -> string, catalog: Request -> Reply,
                                    elements: seq<Element>, k: nat)
    requires catalog(Get(ProductPath(id), [])) == Answer(200, Doc(elements))
    requires FirstWith(elements, ElementTag, "product") == Some(k)
    ensures |UpdateProductPrice(id, price, show, catalog).requests| == 2
    ensures UpdateProductPrice(id, price, show, catalog).requests[1]
            == Post(PutPath(id), elements[k := Rewrite(elements[k], show(price))])
  {
    FoundProductIsWritten(id, price, show, catalog, elements, k);
  }

  /** Two child sequences with the same tags position by position find a tag at the same place. */
  lemma FirstChildSameTags(a: seq<Child>, b: seq<Child>, tag: string)
    requires |a| == |b| && forall i :: 0 <= i < |a| ==> a[i].tag == b[i].tag
    ensures FirstWith(a, ChildTag, tag) == FirstWith(b, ChildTag, tag)
  {
  }

  /** Two child sequences with the same tags position by position count every tag alike. */
  lemma {:induction false} SameTagsSameCount(a: seq<Child>, b: seq<Child>, tag: string)
    requires |a| == |b| && forall i :: 0 <= i < |a| ==> a[i].tag == b[i].tag
    ensures Count(a, tag) == Count(b, tag)
    decreases |a|
  {
    if |a| > 0 {
      SameTagsSameCount(a[1..], b[1..], tag);
    }
  }

  /** A write answered with anything but 200 is reported with its status. */
  lemma RejectedWriteReported(id: string, price: real, show: real -> string, catalog: Request -> Reply,
                              elements: seq<Element>, k: nat, code: nat, body: Body)
    requires catalog(Get(ProductPath(id), [])) == Answer(200, Doc(elements))
    requires FirstWith(elements, ElementTag, "product") == Some(k)
    requires catalog(Post(PutPath(id), elements[k := Rewrite(elements[k], show(price))])) == Answer(code, body)
    requires code != 200
    ensures UpdateProductPrice(id, price, show, catalog).message == "Erreur " + NatToString(code)
    ensures !UpdateProductPrice(id, price, show, catalog).ok
  {
    FoundProductIsWritten(id, price, show, catalog, elements, k);
  }
}

=== FILE: decimal_text.dfy ===
/**
  Decimal numbers as text: the rounding used by pandas' `.round(n)` and by
  Python's fixed-point format specifiers (`:.3f`, `:.0f`), the fixed-point
  rendering itself, and the subset of Python's `float(str)` that the price
  editor relies on. Prices are exact rationals (`real`); the binary
  floating-point error of the original is not modelled.
*/
module DecimalText {
  import opened Wrappers

  predicate IsDigit(c: char) {
    '0' <= c <= '9'
  }

  predicate AllDigits(s: string) {
    forall i :: 0 <= i < |s| ==> IsDigit(s[i])
  }

  function DigitChar(d: nat): (c: char)
    requires d < 10
    ensures IsDigit(c) && c as int - '0' as int == d
  {
    ('0' as int + d) as char
  }

  function DigitValue(c: char): nat
    requires IsDigit(c)
  {
    c as int - '0' as int
  }

  /** The number a string of decimal digits denotes (most significant first). */
  function DigitsValue(s: string): nat
    requires AllDigits(s)
    decreases |s|
  {
    if |s| == 0 then 0 else 10 * DigitsValue(s[..|s| - 1]) + DigitValue(s[|s| - 1])
  }

  function Pow10(k: nat): (p: nat)
    ensures p >= 1
  {
    if k == 0 then 1 else 10 * Pow10(k - 1)
  }

  /** Python's `str(n)` for a non-negative integer: canonical decimal digits. */
  function NatToString(n: nat): (s: string)
    ensures |s| >= 1 && AllDigits(s)
    ensures DigitsValue(s) == n
    ensures |s| == 1 || s[0] != '0'
    decreases n
  {
    if n < 10 then [DigitChar(n)]
    else
      var prefix := NatToString(n / 10);
      var s := prefix + [DigitChar(n % 10)];
      assert s[..|s| - 1] == prefix;
      s
  }

  /** Exactly `width` digits denoting `r`, zero-padded on the left. */
  function FracDigits(r: nat, width: nat): (s: string)
    requires r < Pow10(width)
    ensures |s| == width && AllDigits(s)
    ensures DigitsValue(s) == r
    decreases width
  {
    if width == 0 then ""
    else
      var prefix := FracDigits(r / 10, width - 1);
      var s := prefix + [DigitChar(r % 10)];
      assert s[..|s| - 1] == prefix;
      s
  }

  /**
    Round to the nearest integer, ties to the even neighbour: what numpy's
    `round` (behind pandas' `.round`) and Python's `format` do on an exact
    value.
  */
  function RoundHalfEven(x: real): (n: int)
    ensures -0.5 <= x - n as real <= 0.5
    ensures (x - n as real == 0.5 || n as real - x == 0.5) ==> n % 2 == 0
  {
    var f := x.Floor;
    var d := x - f as real;
    if d < 0.5 then f
    else if d > 0.5 then f + 1
    else if f % 2 == 0 then f
    else f + 1
  }

  /** `x` expressed in units of 10^-places. */
  function Shift(x: real, places: nat): real {
    x * Pow10(places) as real
  }

  /** A value with at most `places` decimals: a whole number of units of 10^-places. */
  predicate HasPlaces(r: real, places: nat) {
    Shift(r, places).Floor as real == Shift(r, places)
  }

  /** The value of `n` units of 10^-places. */
  function Scaled(n: int, places: nat): (r: real)
    ensures Shift(r, places) == n as real
    ensures HasPlaces(r, places)
  {
    n as real / Pow10(places) as real
  }

  /** `round(x, places)` on an exact value: the nearest value with `places` decimals. */
  function Round(x: real, places: nat): (r: real)
    ensures HasPlaces(r, places)
    ensures -0.5 <= Shift(x, places) - Shift(r, places) <= 0.5
  {
    Scaled(RoundHalfEven(Shift(x, places)), places)
  }

  /**
    No value with `places` decimals is closer to `x` than `Round(x, places)`:
    rounding picks a nearest representable value.
  */
  lemma RoundIsNearest(x: real, places: nat, y: real)
    requires HasPlaces(y, places)
    ensures var d := Shift(x, places) - Shift(Round(x, places), places);
            var e := Shift(x, places) - Shift(y, places);
            (if d < 0.0 then -d else d) <= (if e < 0.0 then -e else e)
  {
    var n := RoundHalfEven(Shift(x, places));
    var m := Shift(y, places).Floor;
    assert Shift(Round(x, places), places) == n as real;
    assert Shift(y, places) == m as real;
    if m != n {
      assert m <= n - 1 || m >= n + 1;
    }
  }

  /** Rounding a value that already has `places` decimals leaves it unchanged. */
  lemma RoundKeepsExact(x: real, places: nat)
    requires HasPlaces(x, places)
    ensures Round(x, places) == x
  {
    var n := Shift(x, places).Floor;
    assert RoundHalfEven(Shift(x, places)) == n;
    var p := Pow10(places) as real;
    assert Round(x, places) * p == x * p;
  }

  /**
    Python's `f"{x:.<places>f}"`: an optional minus sign (kept when x is
    negative even if the rounded value is zero, as Python does), the integer
    part, and when places > 0 a point followed by exactly `places` digits.
  */
  function FormatFixed(x: real, places: nat): (s: string)
    ensures |s| >= 1 && (s[0] == '-' <==> x < 0.0)
    ensures places == 0 ==> '.' !in s
    ensures places > 0 ==> |s| > places + 1 && s[|s| - places - 1] == '.' && AllDigits(s[|s| - places..])
  {
    var sign := SignText(x);
    var digits := FixedDigits(Magnitude(RoundHalfEven(Shift(x, places))), places);
    SignedShape(sign, digits, places);
    sign + digits
  }

  /** A sign in front of an unsigned rendering: the shape `FormatFixed` promises. */
  lemma SignedShape(sign: string, digits: string, places: nat)
    requires sign == "" || sign == "-"
    requires |digits| >= 1 && IsDigit(digits[0])
    requires places == 0 ==> AllDigits(digits)
    requires places > 0 ==>
               |digits| > places + 1 && digits[|digits| - places - 1] == '.' && AllDigits(digits[|digits| - places..])
    ensures var s := sign + digits;
            && |s| >= 1 && (s[0] == '-' <==> sign == "-")
            && (places == 0 ==> '.' !in s)
            && (places > 0 ==> |s| > places + 1 && s[|s| - places - 1] == '.' && AllDigits(s[|s| - places..]))
  {
    var s := sign + digits;
    if places == 0 {
      forall i | 0 <= i < |s| ensures s[i] != '.' {
        if i >= |sign| {
          assert s[i] == digits[i - |sign|];
        }
      }
    }
    if places > 0 {
      assert s[|s| - places..] == digits[|digits| - places..];
    }
  }

  function SignText(x: real): string {
    if x < 0.0 then "-" else ""
  }

  function Magnitude(n: int): nat {
    if n < 0 then -n else n
  }

  /** The unsigned part of a fixed-point rendering of `a / 10^places`. */
  function FixedDigits(a: nat, places: nat): (s: string)
    ensures |s| >= 1 && IsDigit(s[0]) && IsDigit(s[|s| - 1])
    ensures places == 0 ==> AllDigits(s)
    ensures places > 0 ==> |s| > places + 1 && s[|s| - places - 1] == '.' && AllDigits(s[|s| - places..])
  {
    if places == 0 then NatToString(a)
    else
      var p := Pow10(places);
      DivModBounds(a, p);
      var whole := NatToString(a / p);
      var frac := FracDigits(a % p, places);
      var s := whole + "." + frac;
      assert s[0] == whole[0] && s[|s| - 1] == frac[places - 1];
      assert s[|s| - places..] == frac;
      s
  }

  /** The ASCII characters Python strips as white space, the separators 0x1C-0x1F included. */
  predicate IsSpace(c: char) {
    c == ' ' || c == '\t' || c == '\n' || c == '\r' || c == '\U{000B}' || c == '\U{000C}'
    || '\U{001C}' <= c <= '\U{001F}'
  }

  /** The characters a decimal text may contain at all. */
  predicate IsDecimalChar(c: char) {
    IsDigit(c) || c == '.' || c == '+' || c == '-' || IsSpace(c)
  }

  predicate DecimalChars(s: string) {
    forall i :: 0 <= i < |s| ==> IsDecimalChar(s[i])
  }

  predicate HasDigit(s: string) {
    exists i :: 0 <= i < |s| && IsDigit(s[i])
  }

  function TrimLeft(s: string): string
    decreases |s|
  {
    if |s| > 0 && IsSpace(s[0]) then TrimLeft(s[1..]) else s
  }

  function TrimRight(s: string): string
    decreases |s|
  {
    if |s| > 0 && IsSpace(s[|s| - 1]) then TrimRight(s[..|s| - 1]) else s
  }

  /** Position of the first occurrence of `c` in `s`. */
  function IndexOf(s: string, c: char): (k: Option<nat>)
    ensures k.Some? ==> k.value < |s| && s[k.value] == c && c !in s[..k.value]
    ensures k.None? ==> c !in s
    decreases |s|
  {
    if |s| == 0 then None
    else if s[0] == c then Some(0)
    else match IndexOf(s[1..], c)
      case None => None
      case Some(k) => Some(k + 1)
  }

  /** An unsigned decimal: digits, optionally one point, at least one digit. */
  function ParseUnsigned(t: string): Option<real> {
    match IndexOf(t, '.')
    case None =>
      if |t| >= 1 && AllDigits(t) then Some(DigitsValue(t) as real) else None
    case Some(k) => ParsePointed(t[..k], t[k + 1..])
  }

  /** The digits before and after the decimal point, either side possibly empty. */
  function ParsePointed(whole: string, frac: string): Option<real> {
    if AllDigits(whole) && AllDigits(frac) && |whole| + |frac| >= 1
    then Some(DigitsValue(whole) as real + DigitsValue(frac) as real / Pow10(|frac|) as real)
    else None
  }

  /**
    Python's `float(s)` restricted to plain ASCII decimal notation:
    surrounding ASCII white space is ignored, then an optional sign and an
    unsigned decimal of ASCII digits.
  */
  function ParseDecimal(s: string): (r: Option<real>)
    ensures r.Some? ==> |s| > 0
    ensures r.Some? ==> DecimalChars(s) && HasDigit(s)
    ensures |s| > 0 && AllDigits(s) ==> r == Some(DigitsValue(s) as real)
  {
    var t := TrimRight(TrimLeft(s));
    assert |s| > 0 && AllDigits(s) ==> t == s && ParseUnsigned(s) == Some(DigitsValue(s) as real) by {
      if |s| > 0 && AllDigits(s) {
        TrimNoSpace(s);
        UnsignedOfDigits(s);
      }
    }
    TrimmedCharacters(s);
    ParseSigned(t)
  }

  /** An optional sign, then an unsigned decimal. */
  function ParseSigned(t: string): (r: Option<real>)
    ensures r.Some? ==> DecimalChars(t) && HasDigit(t)
  {
    if |t| > 0 && (t[0] == '+' || t[0] == '-') then
      match ParseUnsigned(t[1..])
      case None => None
      case Some(v) =>
        UnsignedCharacters(t[1..]);
        SignedCharacters(t);
        Some(if t[0] == '-' then -v else v)
    else
      UnsignedCharacters(t);
      ParseUnsigned(t)
  }

  /** A character outside the notation is rejected, a comma included. */
  lemma StrayCharacterRejected()
    ensures ParseDecimal("abc") == None
    ensures ParseDecimal("12,5") == None
  {
  }

  /** A sign or a point without any digit is rejected. */
  lemma DigitlessRejected()
    ensures ParseDecimal("+") == None
    ensures ParseDecimal(" . ") == None
  {
  }

  /** A second decimal point is rejected. */
  lemma SecondPointRejected()
    ensures ParseDecimal("1.2.3") == None
  {
  }

  /** White space is all the trimming removes. */
  lemma {:induction false} TrimLeftDrops(s: string)
    ensures |TrimLeft(s)| <= |s| && TrimLeft(s) == s[|s| - |TrimLeft(s)|..]
    ensures forall i :: 0 <= i < |s| - |TrimLeft(s)| ==> IsSpace(s[i])
    decreases |s|
  {
    if |s| > 0 && IsSpace(s[0]) {
      TrimLeftDrops(s[1..]);
      assert s[1..][|s[1..]| - |TrimLeft(s)|..] == s[|s| - |TrimLeft(s)|..];
      forall i | 0 < i < |s| - |TrimLeft(s)| ensures IsSpace(s[i]) {
        assert s[i] == s[1..][i - 1];
      }
    }
  }

  lemma {:induction false} TrimRightDrops(s: string)
    ensures |TrimRight(s)| <= |s| && TrimRight(s) == s[..|TrimRight(s)|]
    ensures forall i :: |TrimRight(s)| <= i < |s| ==> IsSpace(s[i])
    decreases |s|
  {
    if |s| > 0 && IsSpace(s[|s| - 1]) {
      var u := s[..|s| - 1];
      TrimRightDrops(u);
      assert u[..|TrimRight(s)|] == s[..|TrimRight(s)|];
      forall i | |TrimRight(s)| <= i < |s| - 1 ensures IsSpace(s[i]) {
        assert s[i] == u[i];
      }
    }
  }

  /** What the trimmed text contains, the whole text contains, up to white space. */
  lemma TrimmedCharacters(s: string)
    ensures var t := TrimRight(TrimLeft(s));
            && (DecimalChars(t) ==> DecimalChars(s))
            && (HasDigit(t) ==> HasDigit(s))
  {
    var u := TrimLeft(s);
    var t := TrimRight(u);
    TrimLeftDrops(s);
    TrimRightDrops(u);
    var a := |s| - |u|;
    assert forall j :: 0 <= j < |t| ==> t[j] == s[a + j];
    if DecimalChars(t) {
      forall i | 0 <= i < |s| ensures IsDecimalChar(s[i]) {
        if a <= i < a + |t| {
          assert s[i] == t[i - a];
        } else if a + |t| <= i {
          assert s[i] == u[i - a];
        }
      }
    }
    if HasDigit(t) {
      var j :| 0 <= j < |t| && IsDigit(t[j]);
      assert IsDigit(s[a + j]);
    }
  }

  /** An unsigned decimal holds only digits and its point, and at least one digit. */
  lemma UnsignedCharacters(t: string)
    ensures ParseUnsigned(t).Some? ==> DecimalChars(t) && HasDigit(t)
  {
    if ParseUnsigned(t).Some? {
      match IndexOf(t, '.')
      case None =>
        assert IsDigit(t[0]);
      case Some(k) =>
        var whole, frac := t[..k], t[k + 1..];
        forall i | 0 <= i < |t| ensures IsDecimalChar(t[i]) {
          if i < k {
            assert t[i] == whole[i];
          } else if i > k {
            assert t[i] == frac[i - k - 1];
          }
        }
        if |whole| > 0 {
          assert IsDigit(t[0]) by { assert t[0] == whole[0]; }
        } else {
          assert IsDigit(t[k + 1]) by { assert t[k + 1] == frac[0]; }
        }
    }
  }

  /** A sign in front keeps both facts. */
  lemma SignedCharacters(t: string)
    requires |t| > 0 && (t[0] == '+' || t[0] == '-')
    requires DecimalChars(t[1..]) && HasDigit(t[1..])
    ensures DecimalChars(t) && HasDigit(t)
  {
    forall i | 1 <= i < |t| ensures IsDecimalChar(t[i]) {
      assert t[i] == t[1..][i - 1];
    }
    var j :| 0 <= j < |t[1..]| && IsDigit(t[1..][j]);
    assert IsDigit(t[j + 1]);
  }

  lemma {:induction false} IndexOfAfterDigits(d: string, rest: string)
    requires AllDigits(d)
    ensures IndexOf(d + "." + rest, '.') == Some(|d|)
    decreases |d|
  {
    if |d| > 0 {
      assert (d + "." + rest)[1..] == d[1..] + "." + rest;
      IndexOfAfterDigits(d[1..], rest);
    }
  }

  lemma UnsignedOfDigits(d: string)
    requires |d| >= 1 && AllDigits(d)
    ensures ParseUnsigned(d) == Some(DigitsValue(d) as real)
  {
    assert forall i :: 0 <= i < |d| ==> d[i] != '.';
  }

  lemma UnsignedOfPointed(d: string, f: string)
    requires |d| >= 1 && AllDigits(d) && AllDigits(f)
    ensures ParseUnsigned(d + "." + f) == ParsePointed(d, f)
  {
    var t := d + "." + f;
    IndexOfAfterDigits(d, f);
    assert t[..|d|] == d;
    assert t[|d| + 1..] == f;
  }

  /** A string that neither starts nor ends with white space is its own strip. */
  lemma TrimNoSpace(t: string)
    requires |t| > 0 && !IsSpace(t[0]) && !IsSpace(t[|t| - 1])
    ensures TrimRight(TrimLeft(t)) == t
  {
  }

  lemma SignedParse(sign: string, body: string, v: real)
    requires sign == "" || sign == "-"
    requires |body| >= 1 && IsDigit(body[0]) && IsDigit(body[|body| - 1])
    requires ParseUnsigned(body) == Some(v)
    ensures ParseDecimal(sign + body) == Some(if sign == "-" then -v else v)
  {
    var t := sign + body;
    assert t[|t| - 1] == body[|body| - 1];
    if sign == "-" {
      assert t[0] == '-';
      TrimNoSpace(t);
      assert t[1..] == body;
    } else {
      assert t == body;
      TrimNoSpace(t);
      assert IsDigit(t[0]) && t[0] != '+' && t[0] != '-';
    }
  }

  lemma DivModBounds(a: nat, p: nat)
    requires p >= 1
    ensures 0 <= a / p && a % p < p
  {
  }

  /** Splitting a non-negative integer into whole and fractional parts loses nothing. */
  lemma WholeAndFraction(a: nat, p: nat)
    requires p >= 1
    ensures (a / p) as real + (a % p) as real / p as real == a as real / p as real
  {
    var q := a / p;
    var m := a % p;
    assert a == q * p + m;
    assert (q * p + m) as real == q as real * p as real + m as real;
  }

  /** Scaling commutes with negation. */
  lemma ScaledNegate(n: int, places: nat)
    ensures Scaled(-n, places) == -Scaled(n, places)
  {
  }

  /** A rounded value has the sign of the value rounded (or is zero). */
  lemma RoundedSign(x: real, places: nat)
    ensures x < 0.0 ==> RoundHalfEven(Shift(x, places)) <= 0
    ensures x >= 0.0 ==> RoundHalfEven(Shift(x, places)) >= 0
  {
    RoundKeepsSign(Shift(x, places));
  }

  lemma RoundKeepsSign(y: real)
    ensures y < 0.0 ==> RoundHalfEven(y) <= 0
    ensures y >= 0.0 ==> RoundHalfEven(y) >= 0
  {
  }

  /** A whole part and a zero-padded fraction read back as their sum. */
  lemma PointedParts(q: nat, m: nat, places: nat)
    requires m < Pow10(places)
    ensures ParsePointed(NatToString(q), FracDigits(m, places))
         == Some(q as real + m as real / Pow10(places) as real)
  {
  }

  /** The rendering of `a / 10^places` split at its decimal point. */
  lemma FixedSplit(a: nat, places: nat) returns (whole: string, frac: string)
    requires places > 0
    ensures |whole| >= 1 && AllDigits(whole) && AllDigits(frac)
    ensures FixedDigits(a, places) == whole + "." + frac
    ensures ParsePointed(whole, frac) == Some(a as real / Pow10(places) as real)
  {
    var p := Pow10(places);
    DivModBounds(a, p);
    whole := NatToString(a / p);
    frac := FracDigits(a % p, places);
    PointedParts(a / p, a % p, places);
    WholeAndFraction(a, p);
  }

  /** The unsigned part of a rendering reads back as the value it renders. */
  lemma FixedDigitsValue(a: nat, places: nat)
    ensures ParseUnsigned(FixedDigits(a, places)) == Some(Scaled(a, places))
  {
    if places == 0 {
      UnsignedOfDigits(NatToString(a));
    } else {
      var whole, frac := FixedSplit(a, places);
      UnsignedOfPointed(whole, frac);
      assert ParseUnsigned(FixedDigits(a, places)) == Some(a as real / Pow10(places) as real);
    }
  }

  /**
    Reading back a fixed-point rendering yields exactly the rounded value:
    the text written by `:.<places>f` denotes `round(x, places)`.
  */
  lemma FormatParseRoundTrip(x: real, places: nat)
    ensures ParseDecimal(FormatFixed(x, places)) == Some(Round(x, places))
  {
    var sign, a := FormatFixedParts(x, places);
    SignedRendering(sign, a, places);
  }

  /** A sign followed by the rendering of a magnitude reads back as the signed value. */
  lemma SignedRendering(sign: string, a: nat, places: nat)
    requires sign == "" || sign == "-"
    ensures ParseDecimal(sign + FixedDigits(a, places))
            == Some(if sign == "-" then -Scaled(a, places) else Scaled(a, places))
  {
    FixedDigitsValue(a, places);
    SignedParse(sign, FixedDigits(a, places), Scaled(a, places));
  }

  /** A rendering is a sign and a rounded magnitude that, signed, is the rounded value. */
  lemma FormatFixedParts(x: real, places: nat) returns (sign: string, a: nat)
    ensures sign == "" || sign == "-"
    ensures FormatFixed(x, places) == sign + FixedDigits(a, places)
    ensures (if sign == "-" then -Scaled(a, places) else Scaled(a, places)) == Round(x, places)
  {
    var n := RoundHalfEven(Shift(x, places));
    sign := SignText(x);
    a := Magnitude(n);
    RoundedSign(x, places);
    ScaledNegate(a, places);
  }
}

=== FILE: price_engine.dfy ===
/**
  The sale-price column: the margin formula applied on load and by "apply
  margin", and the manual edit of one row's sale price.
*/
module PriceEngine {
  import opened Wrappers
  import opened DecimalText
  import opened Selection

  /** `round(purchase * (1 + margin / 100), 3)`. */
  function MarginPrice(purchase: real, margin: real): (price: real)
    ensures HasPlaces(price, 3)
    ensures -0.5 <= Shift(purchase * (1.0 + margin / 100.0), 3) - Shift(price, 3) <= 0.5
  {
    Round(purchase * (1.0 + margin / 100.0), 3)
  }

  /**
    Recompute the sale price of every row from its purchase price. No row is
    exempt: a sale price typed in by hand is overwritten like any other.
  */
  function ApplyMargin(sheet: seq<Row>, margin: real): (out: seq<Row>)
    ensures |out| == |sheet|
    ensures forall i :: 0 <= i < |sheet| ==>
              out[i].sku == sheet[i].sku && out[i].purchase == sheet[i].purchase
              && out[i].group == sheet[i].group
              && out[i].sale == MarginPrice(sheet[i].purchase, margin)
  {
    seq(|sheet|, i requires 0 <= i < |sheet| =>
      sheet[i].(sale := MarginPrice(sheet[i].purchase, margin)))
  }

  predicate IsSeparator(c: char) {
    c == ',' || c == '.'
  }

  /** The edit dialog's `replace(',', '.')`. */
  function NormalizeSeparator(s: string): (r: string)
    ensures |r| == |s| && ',' !in r
    ensures forall i :: 0 <= i < |s| && s[i] != ',' ==> r[i] == s[i]
    ensures forall i :: 0 <= i < |s| && s[i] == ',' ==> r[i] == '.'
  {
    seq(|s|, i requires 0 <= i < |s| => if s[i] == ',' then '.' else s[i])
  }

  /** How the edit dialog reads a price: commas become points, then `float`. */
  function ParsePrice(input: string): Option<real> {
    ParseDecimal(NormalizeSeparator(input))
  }

  datatype EditError = NoSuchRow | InvalidPrice

  /**
    The manual edit: the row at `index` gets the typed sale price. An unknown
    row or unreadable text changes nothing; a negative price is accepted.
  */
  function EditSale(sheet: seq<Row>, index: nat, input: string): (r: Result<seq<Row>, EditError>)
    ensures r.Success? <==> index < |sheet| && ParsePrice(input).Some?
    ensures index >= |sheet| ==> r == Failure(NoSuchRow)
    ensures index < |sheet| && ParsePrice(input).None? ==> r == Failure(InvalidPrice)
    ensures r.Success? ==>
              && |r.value| == |sheet|
              && r.value[index] == sheet[index].(sale := ParsePrice(input).value)
              && forall j :: 0 <= j < |sheet| && j != index ==> r.value[j] == sheet[j]
  {
    if index >= |sheet| then Failure(NoSuchRow)
    else match ParsePrice(input)
      case None => Failure(InvalidPrice)
      case Some(v) => Success(sheet[index := sheet[index].(sale := v)])
  }

  /**
    Commas and points are interchangeable in the edit dialog: two inputs that
    differ only in which decimal separator they use read as the same price.
  */
  lemma SeparatorsInterchangeable(s: string, t: string)
    requires |s| == |t|
    requires forall i :: 0 <= i < |s| ==> s[i] == t[i] || (IsSeparator(s[i]) && IsSeparator(t[i]))
    ensures ParsePrice(s) == ParsePrice(t)
  {
    assert NormalizeSeparator(s) == NormalizeSeparator(t);
  }

  /** "12,5" and "12.5" both read as 12.5. */
  lemma CommaAndPointAgree()
    ensures ParsePrice("12,5") == ParsePrice("12.5") == Some(12.5)
  {
    SeparatorsInterchangeable("12,5", "12.5");
    PointReadsTwelveAndAHalf();
    assert NormalizeSeparator("12.5") == "12.5";
    SignedParse("", "12.5", 12.5);
    assert "" + "12.5" == "12.5";
  }

  lemma PointReadsTwelveAndAHalf()
    ensures ParseUnsigned("12.5") == Some(12.5)
  {
    assert "12" + "." + "5" == "12.5";
    UnsignedOfPointed("12", "5");
    assert DigitsValue("12") == 12 by {
      assert "12"[..1] == "1";
    }
    assert DigitsValue("5") == 5 by {
      assert "5"[..0] == "";
    }
    assert Pow10(1) == 10;
  }

  /** A negative price typed by hand is stored as such. */
  lemma NegativeEditAccepted(sheet: seq<Row>)
    requires |sheet| > 0
    ensures EditSale(sheet, 0, "-5") == Success(sheet[0 := sheet[0].(sale := -5.0)])
  {
    assert NormalizeSeparator("-5") == "-" + "5";
    UnsignedOfDigits("5");
    assert DigitsValue("5") == 5 by {
      assert "5"[..0] == "";
    }
    SignedParse("-", "5", 5.0);
  }

  /** Re-applying the margin erases a manual edit: the edit leaves no trace. */
  lemma MarginOverwritesEdit(sheet: seq<Row>, index: nat, input: string, margin: real)
    requires EditSale(sheet, index, input).Success?
    ensures ApplyMargin(EditSale(sheet, index, input).value, margin) == ApplyMargin(sheet, margin)
  {
    var edited := EditSale(sheet, index, input).value;
    var a := ApplyMargin(edited, margin);
    var b := ApplyMargin(sheet, margin);
    assert forall i :: 0 <= i < |sheet| ==> a[i] == b[i];
  }

  /** Only the most recent margin matters. */
  lemma LastMarginWins(sheet: seq<Row>, first: real, second: real)
    ensures ApplyMargin(ApplyMargin(sheet, first), second) == ApplyMargin(sheet, second)
  {
    var a := ApplyMargin(ApplyMargin(sheet, first), second);
    var b := ApplyMargin(sheet, second);
    assert forall i :: 0 <= i < |sheet| ==> a[i] == b[i];
  }

  /** The margin price is a nearest three-decimal value to the exact product. */
  lemma MarginPriceIsNearest(purchase: real, margin: real, other: real)
    requires HasPlaces(other, 3)
    ensures var exact := Shift(purchase * (1.0 + margin / 100.0), 3);
            var d := exact - Shift(MarginPrice(purchase, margin), 3);
            var e := exact - Shift(other, 3);
            (if d < 0.0 then -d else d) <= (if e < 0.0 then -e else e)
  {
    RoundIsNearest(purchase * (1.0 + margin / 100.0), 3, other);
  }
}

=== FILE: reconcile.dfy ===
/**
  The update run behind "update via API": for each row of the batch, find
  the shop's product id (from the SKU cache or by a lookup), push the row's
  sale price, and record the outcome in the counters and the log.
*/
module Reconcile {
  import opened Wrappers
  import opened DecimalText
  import opened Selection
  import opened Catalog

  /** What happened to one row. */
  datatype Outcome = Updated | Skipped | Failed(message: string)

  /**
    The two calls the loop makes into the shop client: the lookup of a
    product id from a SKU, and the price update of a product id, answering
    success and a message. `ShopContext` wires them to the client.
  */
  datatype Context = Context(lookup: string -> Option<string>, push: (string, real) -> (bool, string))

  /** The client calls as `_do_update` makes them, with the configured supplier id. */
  function ShopContext(supplierId: Option<string>, catalog: Request -> Reply, show: real -> string): (ctx: Context)
    ensures forall sku :: ctx.lookup(sku) == FindProductId(sku, supplierId, catalog).id
    ensures forall id, price :: ctx.push(id, price).0 == UpdateProductPrice(id, price, show, catalog).ok
    ensures forall id, price :: ctx.push(id, price).1 == UpdateProductPrice(id, price, show, catalog).message
  {
    Context(
      sku => FindProductId(sku, supplierId, catalog).id,
      (id, price) => var u := UpdateProductPrice(id, price, show, catalog); (u.ok, u.message))
  }

  /** A line of the run's log. */
  datatype LogLine =
    | Title(stamp: string)
    | Summary(total: nat, margin: real)
    | RowLine(row: Row, outcome: Outcome)

  /** What a row's log line starts with, before the SKU: a symbol per kind of outcome and a space. */
  function Lead(outcome: Outcome): string {
    match outcome
    case Skipped => "\U{23ED}\U{FE0F} "
    case Updated => "\U{2705} "
    case Failed(_) => "\U{274C} "
  }

  const TitleOpening: string := "=== Mise à jour prix "
  const SummaryOpening: string := "Produits: "
  const MarginLabel: string := ", Marge: "

  /** A title line: the opening words, the clock reading and the closing marks. */
  predicate ShowsTitle(text: string, stamp: string) {
    && |text| == |TitleOpening| + |stamp| + 4
    && text[..|TitleOpening|] == TitleOpening
    && text[|TitleOpening|..|text| - 4] == stamp
  }

  /**
    A summary line: the row count in digits, then the margin written
    without decimals, which reads back as the margin rounded to a whole
    number, then a percent sign and a line break.
  */
  predicate ShowsSummary(text: string, total: nat, margin: real) {
    var count := NatToString(total);
    var tail := |SummaryOpening| + |count| + |MarginLabel|;
    && |text| >= tail + 2
    && text[..|SummaryOpening|] == SummaryOpening
    && text[|SummaryOpening|..|SummaryOpening| + |count|] == count
    && DigitsValue(text[|SummaryOpening|..|SummaryOpening| + |count|]) == total
    && ParseDecimal(text[tail..|text| - 2]) == Some(Round(margin, 0))
    && text[|text| - 2..] == "%\n"
  }

  /**
    A row's line: its lead and SKU, then the shop's message for a failure,
    the "not found" note for a skipped row, or the price for an updated
    row, which reads back as the sale price rounded to three decimals,
    followed by the euro sign.
  */
  predicate ShowsRow(text: string, row: Row, outcome: Outcome) {
    var head := Lead(outcome) + row.sku + ": ";
    && |text| >= |head|
    && text[..|head|] == head
    && (outcome.Failed? ==> text[|head|..] == outcome.message)
    && (outcome.Skipped? ==> text[|head|..] == "Non trouvé dans PrestaShop")
    && (outcome.Updated? ==>
          && |text| > |head|
          && text[|text| - 1] == '\U{20AC}'
          && ParseDecimal(text[|head|..|text| - 1]) == Some(Round(row.sale, 3)))
  }

  /**
    The text of a log line. `stamp` is the clock reading as `%Y-%m-%d %H:%M`;
    the summary line carries its own line break, as in the program.
  */
  function Render(line: LogLine): (text: string)
    ensures line.Title? ==> ShowsTitle(text, line.stamp)
    ensures line.Summary? ==> ShowsSummary(text, line.total, line.margin)
    ensures line.RowLine? ==> ShowsRow(text, line.row, line.outcome)
  {
    match line
    case Title(stamp) => TitleText(stamp)
    case Summary(total, margin) => SummaryText(total, margin)
    case RowLine(row, outcome) => RowText(row, outcome)
  }

  function TitleText(stamp: string): (text: string)
    ensures ShowsTitle(text, stamp)
  {
    var text := TitleOpening + stamp + " ===";
    assert text[..|TitleOpening|] == TitleOpening && text[|TitleOpening|..|text| - 4] == stamp;
    text
  }

  function SummaryText(total: nat, margin: real): (text: string)
    ensures ShowsSummary(text, total, margin)
  {
    var count := NatToString(total);
    var percent := FormatFixed(margin, 0);
    var text := SummaryOpening + count + MarginLabel + percent + "%\n";
    assert text[..|SummaryOpening|] == SummaryOpening;
    assert text[|SummaryOpening|..|SummaryOpening| + |count|] == count;
    assert text[|SummaryOpening| + |count| + |MarginLabel|..|text| - 2] == percent;
    assert text[|text| - 2..] == "%\n";
    assert ParseDecimal(percent) == Some(Round(margin, 0)) by {
      FormatParseRoundTrip(margin, 0);
    }
    text
  }

  function RowText(row: Row, outcome: Outcome): (text: string)
    ensures ShowsRow(text, row, outcome)
  {
    var head := Lead(outcome) + row.sku + ": ";
    match outcome
    case Skipped =>
      Split(head, "Non trouvé dans PrestaShop");
      head + "Non trouvé dans PrestaShop"
    case Failed(message) =>
      Split(head, message);
      head + message
    case Updated => UpdatedText(head, row.sale)
  }

  /** An updated row's line after its head: the price with three decimals and the euro sign. */
  function UpdatedText(head: string, sale: real): (text: string)
    ensures |text| > |head| && text[..|head|] == head && text[|text| - 1] == '\U{20AC}'
    ensures ParseDecimal(text[|head|..|text| - 1]) == Some(Round(sale, 3))
  {
    var price := FormatFixed(sale, 3);
    var text := head + price + "\U{20AC}";
    assert text[..|head|] == head && text[|head|..|text| - 1] == price;
    assert ParseDecimal(price) == Some(Round(sale, 3)) by {
      FormatParseRoundTrip(sale, 3);
    }
    text
  }

  /** A concatenation splits back into its two parts. */
  lemma Split(head: string, rest: string)
    ensures (head + rest)[..|head|] == head && (head + rest)[|head|..] == rest
  {
  }

  /** Two row lines with the same text record the same kind of outcome. */
  lemma LogLineShowsOutcome(a: LogLine, b: LogLine)
    requires a.RowLine? && b.RowLine? && Render(a) == Render(b)
    ensures a.outcome.Skipped? <==> b.outcome.Skipped?
    ensures a.outcome.Updated? <==> b.outcome.Updated?
    ensures a.outcome.Failed? <==> b.outcome.Failed?
  {
    var headA := Lead(a.outcome) + a.row.sku + ": ";
    var headB := Lead(b.outcome) + b.row.sku + ": ";
    var text := Render(a);
    assert text[..|headA|] == headA && text[..|headB|] == headB;
    assert Lead(a.outcome)[0] == headA[0] == text[0] == headB[0] == Lead(b.outcome)[0];
  }


  /** The product id used for a SKU: the cached one, otherwise a fresh lookup. */
  function ResolveId(sku: string, cache: map<string, string>, ctx: Context): Option<string> {
    if sku in cache then Some(cache[sku]) else ctx.lookup(sku)
  }

  /** The effect of one row: its outcome, the cache after it, and whether it sent a lookup. */
  datatype RowStep = RowStep(outcome: Outcome, cache: map<string, string>, looked: bool)

  /**
    One iteration of the loop. The cache only learns ids that are non-empty,
    and it never forgets or changes an entry.
  */
  function ProcessRow(row: Row, cache: map<string, string>, ctx: Context): (s: RowStep)
    ensures s.looked <==> row.sku !in cache
    ensures s.outcome == Skipped <==> !Truthy(ResolveId(row.sku, cache, ctx))
    ensures s.outcome.Updated? ==> ctx.push(ResolveId(row.sku, cache, ctx).value, row.sale).0
    ensures s.outcome.Failed? ==>
              && Truthy(ResolveId(row.sku, cache, ctx))
              && var (ok, message) := ctx.push(ResolveId(row.sku, cache, ctx).value, row.sale);
              !ok && s.outcome.message == message
    ensures s.outcome == Skipped || row.sku in cache ==> s.cache == cache
    ensures s.outcome != Skipped && row.sku !in cache ==> s.cache == cache[row.sku := ctx.lookup(row.sku).value]
  {
    var id := ResolveId(row.sku, cache, ctx);
    var next := if row.sku !in cache && Truthy(id) then cache[row.sku := id.value] else cache;
    if !Truthy(id) then RowStep(Skipped, next, row.sku !in cache)
    else
      var (ok, message) := ctx.push(id.value, row.sale);
      RowStep(if ok then Updated else Failed(message), next, row.sku !in cache)
  }

  /**
    The cache after one row: it never forgets or changes an entry, and it
    learns the row's SKU exactly when the row was not skipped.
  */
  lemma RowCache(row: Row, cache: map<string, string>, ctx: Context)
    ensures var s := ProcessRow(row, cache, ctx);
            && (forall k :: k in cache ==> k in s.cache && s.cache[k] == cache[k])
            && (forall k :: k in s.cache <==> k in cache || (k == row.sku && s.outcome != Skipped))
            && (row.sku !in cache && s.outcome != Skipped ==>
                  ctx.lookup(row.sku).Some? && s.cache[row.sku] == ctx.lookup(row.sku).value != "")
  {
  }

  /** The state of a run after some rows. */
  datatype RunState = RunState(outcomes: seq<Outcome>, lines: seq<LogLine>, cache: map<string, string>, looked: seq<bool>)

  /** The first `count` rows processed in batch order, each seeing the cache its predecessors left. */
  function RunUpTo(batch: seq<Entry>, count: nat, cache0: map<string, string>, ctx: Context): (s: RunState)
    requires count <= |batch|
    ensures |s.outcomes| == count && |s.lines| == count && |s.looked| == count
    decreases count
  {
    if count == 0 then RunState([], [], cache0, [])
    else
      var before := RunUpTo(batch, count - 1, cache0, ctx);
      var row := batch[count - 1].row;
      var step := ProcessRow(row, before.cache, ctx);
      RunState(before.outcomes + [step.outcome], before.lines + [RowLine(row, step.outcome)],
               step.cache, before.looked + [step.looked])
  }

  /** The whole batch processed. */
  function Run(batch: seq<Entry>, cache0: map<string, string>, ctx: Context): RunState {
    RunUpTo(batch, |batch|, cache0, ctx)
  }

  /**
    The cache after some rows: the starting entries unchanged, plus the SKUs
    that one of those rows resolved, each holding the non-empty id its
    lookup returned.
  */
  lemma {:induction false} RunCache(batch: seq<Entry>, count: nat, cache0: map<string, string>, ctx: Context)
    requires count <= |batch|
    ensures var s := RunUpTo(batch, count, cache0, ctx);
            && (forall k :: k in cache0 ==> k in s.cache && s.cache[k] == cache0[k])
            && (forall k :: k in s.cache <==> k in cache0 || ResolvedBy(batch, count, s.outcomes, k))
            && (forall k :: k in s.cache && k !in cache0 ==>
                  ctx.lookup(k).Some? && s.cache[k] == ctx.lookup(k).value != "")
    decreases count
  {
    if count > 0 {
      var n := count - 1;
      var before := RunUpTo(batch, n, cache0, ctx);
      RunCache(batch, n, cache0, ctx);
      NextRow(batch, n, cache0, ctx);
      RowCache(batch[n].row, before.cache, ctx);
      var s := RunUpTo(batch, count, cache0, ctx);
      forall k
        ensures ResolvedBy(batch, count, s.outcomes, k)
                <==> ResolvedBy(batch, n, before.outcomes, k) || (k == batch[n].row.sku && s.outcomes[n] != Skipped)
      {
        ResolvedByStep(batch, n, before.outcomes, s.outcomes, k);
      }
    }
  }

  /** Some row among the first `count` has the SKU `k` and was not skipped. */
  predicate ResolvedBy(batch: seq<Entry>, count: nat, outcomes: seq<Outcome>, k: string)
    requires count <= |batch| && count <= |outcomes|
  {
    exists i :: 0 <= i < count && batch[i].row.sku == k && outcomes[i] != Skipped
  }

  lemma ResolvedByStep(batch: seq<Entry>, n: nat, before: seq<Outcome>, after: seq<Outcome>, k: string)
    requires n < |batch| && |before| == n && |after| == n + 1 && after[..n] == before
    ensures ResolvedBy(batch, n + 1, after, k)
            <==> ResolvedBy(batch, n, before, k) || (k == batch[n].row.sku && after[n] != Skipped)
  {
    if ResolvedBy(batch, n + 1, after, k) {
      var i :| 0 <= i < n + 1 && batch[i].row.sku == k && after[i] != Skipped;
      if i < n {
        assert before[i] == after[i];
      }
    }
    if ResolvedBy(batch, n, before, k) {
      var i :| 0 <= i < n && batch[i].row.sku == k && before[i] != Skipped;
      assert after[i] == before[i];
    }
  }

  /** The counters of the run. */
  datatype Totals = Totals(updated: nat, skipped: nat, errors: nat)

  function Tally(outcomes: seq<Outcome>): (t: Totals)
    ensures t.updated + t.skipped + t.errors == |outcomes|
    decreases |outcomes|
  {
    if |outcomes| == 0 then Totals(0, 0, 0)
    else
      var n := |outcomes| - 1;
      var t := Tally(outcomes[..n]);
      match outcomes[n]
      case Updated => t.(updated := t.updated + 1)
      case Skipped => t.(skipped := t.skipped + 1)
      case Failed(_) => t.(errors := t.errors + 1)
  }

  /** Nothing was updated and nothing failed exactly when every row was skipped. */
  lemma {:induction false} TallyAllSkipped(outcomes: seq<Outcome>)
    ensures Tally(outcomes).updated == 0 && Tally(outcomes).errors == 0
            <==> forall i :: 0 <= i < |outcomes| ==> outcomes[i] == Skipped
    decreases |outcomes|
  {
    if |outcomes| > 0 {
      var n := |outcomes| - 1;
      TallyAllSkipped(outcomes[..n]);
      assert forall i :: 0 <= i < n ==> outcomes[..n][i] == outcomes[i];
    }
  }

  /** The counters after one more outcome. */
  lemma TallyAppend(outcomes: seq<Outcome>, last: Outcome)
    ensures Tally(outcomes + [last]).updated == Tally(outcomes).updated + (if last.Updated? then 1 else 0)
    ensures Tally(outcomes + [last]).skipped == Tally(outcomes).skipped + (if last.Skipped? then 1 else 0)
    ensures Tally(outcomes + [last]).errors == Tally(outcomes).errors + (if last.Failed? then 1 else 0)
  {
    assert (outcomes + [last])[..|outcomes|] == outcomes;
  }

  /** Each row's log line records that row with its outcome. */
  lemma {:induction false} RunLines(batch: seq<Entry>, count: nat, cache0: map<string, string>, ctx: Context)
    requires count <= |batch|
    ensures var s := RunUpTo(batch, count, cache0, ctx);
            forall j :: 0 <= j < count ==> s.lines[j] == RowLine(batch[j].row, s.outcomes[j])
    decreases count
  {
    if count > 0 {
      RunLines(batch, count - 1, cache0, ctx);
      NextRow(batch, count - 1, cache0, ctx);
      var before := RunUpTo(batch, count - 1, cache0, ctx);
      var s := RunUpTo(batch, count, cache0, ctx);
      var last := ProcessRow(batch[count - 1].row, before.cache, ctx).outcome;
      assert s.lines == before.lines + [RowLine(batch[count - 1].row, last)];
      assert s.outcomes == before.outcomes + [last];
      forall j | 0 <= j < count
        ensures s.lines[j] == RowLine(batch[j].row, s.outcomes[j])
      {
        if j < count - 1 {
          assert s.lines[j] == before.lines[j] && s.outcomes[j] == before.outcomes[j];
        }
      }
    }
  }

  /** Processing more rows never changes what happened to the earlier ones. */
  lemma {:induction false} RunPrefix(batch: seq<Entry>, m: nat, n: nat, cache0: map<string, string>, ctx: Context)
    requires m <= n <= |batch|
    ensures RunUpTo(batch, m, cache0, ctx).outcomes == RunUpTo(batch, n, cache0, ctx).outcomes[..m]
    ensures RunUpTo(batch, m, cache0, ctx).looked == RunUpTo(batch, n, cache0, ctx).looked[..m]
    decreases n - m
  {
    if m < n {
      RunPrefix(batch, m, n - 1, cache0, ctx);
      var shorter := RunUpTo(batch, n - 1, cache0, ctx);
      var longer := RunUpTo(batch, n, cache0, ctx);
      assert longer.outcomes[..n - 1] == shorter.outcomes;
      assert longer.looked[..n - 1] == shorter.looked;
      assert longer.outcomes[..m] == shorter.outcomes[..m];
      assert longer.looked[..m] == shorter.looked[..m];
    }
  }

  /**
    A row sends a lookup exactly when its SKU was not cached at the start and
    every earlier row with the same SKU was skipped. So a SKU that resolves
    is looked up at most once, while one that does not is looked up again on
    each of its rows.
  */
  lemma LookupOnlyWhenUnknown(batch: seq<Entry>, cache0: map<string, string>, ctx: Context, j: nat)
    requires j < |batch|
    ensures var run := Run(batch, cache0, ctx);
            run.looked[j] <==>
              batch[j].row.sku !in cache0
              && forall i :: 0 <= i < j && batch[i].row.sku == batch[j].row.sku ==> run.outcomes[i] == Skipped
  {
    var run := Run(batch, cache0, ctx);
    RunPrefix(batch, j + 1, |batch|, cache0, ctx);
    RunPrefix(batch, j, |batch|, cache0, ctx);
    var before := RunUpTo(batch, j, cache0, ctx);
    RunCache(batch, j, cache0, ctx);
    RowCache(batch[j].row, before.cache, ctx);
    assert RunUpTo(batch, j + 1, cache0, ctx).looked[j] == run.looked[j];
    assert forall i :: 0 <= i < j ==> before.outcomes[i] == run.outcomes[i];
  }

  /** Once a row resolves its SKU, no later row with that SKU sends a lookup. */
  lemma ResolvedSkuNotLookedUpAgain(batch: seq<Entry>, cache0: map<string, string>, ctx: Context, i: nat, j: nat)
    requires i < j < |batch|
    requires batch[i].row.sku == batch[j].row.sku
    requires Run(batch, cache0, ctx).outcomes[i] != Skipped
    ensures !Run(batch, cache0, ctx).looked[j]
  {
    LookupOnlyWhenUnknown(batch, cache0, ctx, j);
  }

  /**
    Every row of a run is classified exactly once, from the id it resolves
    with the cache its predecessors left: skipped when no non-empty id
    resolves, updated when the push reports success, an error otherwise,
    carrying the push's message.
  */
  lemma RunClassifies(batch: seq<Entry>, cache0: map<string, string>, ctx: Context, j: nat)
    requires j < |batch|
    ensures var outcome := Run(batch, cache0, ctx).outcomes[j];
            var row := batch[j].row;
            var id := ResolveId(row.sku, RunUpTo(batch, j, cache0, ctx).cache, ctx);
            && (outcome == Skipped <==> !Truthy(id))
            && (outcome == Updated <==> Truthy(id) && ctx.push(id.value, row.sale).0)
            && (outcome.Failed? <==> Truthy(id) && !ctx.push(id.value, row.sale).0)
            && (outcome.Failed? ==> outcome.message == ctx.push(id.value, row.sale).1)
  {
    RunPrefix(batch, j + 1, |batch|, cache0, ctx);
    NextRow(batch, j, cache0, ctx);
    var before := RunUpTo(batch, j, cache0, ctx);
    var step := ProcessRow(batch[j].row, before.cache, ctx);
    assert Run(batch, cache0, ctx).outcomes[j] == RunUpTo(batch, j + 1, cache0, ctx).outcomes[j] == step.outcome;
  }

  /**
    `_do_update`: the loop with its three counters and its log, whose first
    two lines are the title and the summary and whose remaining lines follow
    the rows in batch order. The log file is the lines' `Render` texts.
  */
  method DoUpdate(batch: seq<Entry>, margin: real, stamp: string, cache0: map<string, string>, ctx: Context)
    returns (updated: nat, skipped: nat, errors: nat, log: seq<LogLine>, cache: map<string, string>)
    ensures updated + skipped + errors == |batch|
    ensures |log| == |batch| + 2 && log[0] == Title(stamp) && log[1] == Summary(|batch|, margin)
    ensures var run := Run(batch, cache0, ctx);
            && Totals(updated, skipped, errors) == Tally(run.outcomes)
            && (forall j :: 0 <= j < |batch| ==> log[j + 2] == RowLine(batch[j].row, run.outcomes[j]))
            && cache == run.cache
  {
    var rows;
    updated, skipped, errors, rows, cache := UpdateRows(batch, cache0, ctx);
    log := [Title(stamp), Summary(|batch|, margin)] + rows;
    RunLines(batch, |batch|, cache0, ctx);
    assert forall j :: 0 <= j < |batch| ==> log[j + 2] == rows[j];
  }

  /** The loop of `_do_update` over the batch, without the two header lines. */
  method UpdateRows(batch: seq<Entry>, cache0: map<string, string>, ctx: Context)
    returns (updated: nat, skipped: nat, errors: nat, rows: seq<LogLine>, cache: map<string, string>)
    ensures var run := Run(batch, cache0, ctx);
            && Totals(updated, skipped, errors) == Tally(run.outcomes)
            && rows == run.lines
            && cache == run.cache
  {
    updated, skipped, errors := 0, 0, 0;
    rows := [];
    cache := cache0;
    ghost var run := RunState([], [], cache0, []);
    var i := 0;
    while i < |batch|
      invariant 0 <= i <= |batch|
      invariant run == RunUpTo(batch, i, cache0, ctx)
      invariant cache == run.cache && rows == run.lines
      invariant updated == Tally(run.outcomes).updated && skipped == Tally(run.outcomes).skipped
      invariant errors == Tally(run.outcomes).errors
    {
      var row := batch[i].row;
      var outcome;
      outcome, cache := HandleRow(row, cache, ctx);
      NextRow(batch, i, cache0, ctx);
      TallyAppend(run.outcomes, outcome);
      updated := updated + if outcome.Updated? then 1 else 0;
      skipped := skipped + if outcome.Skipped? then 1 else 0;
      errors := errors + if outcome.Failed? then 1 else 0;
      rows := rows + [RowLine(row, outcome)];
      run := RunUpTo(batch, i + 1, cache0, ctx);
      i := i + 1;
    }
  }

  /** Running one more row appends that row's step. */
  lemma NextRow(batch: seq<Entry>, i: nat, cache0: map<string, string>, ctx: Context)
    requires i < |batch|
    ensures var before := RunUpTo(batch, i, cache0, ctx);
            var step := ProcessRow(batch[i].row, before.cache, ctx);
            RunUpTo(batch, i + 1, cache0, ctx)
            == RunState(before.outcomes + [step.outcome], before.lines + [RowLine(batch[i].row, step.outcome)],
                        step.cache, before.looked + [step.looked])
  {
  }

  /**
    The body of the loop for one row: the id from the cache or a lookup
    (remembered only when non-empty), then the price push when there is an id.
  */
  method HandleRow(row: Row, cache: map<string, string>, ctx: Context) returns (outcome: Outcome, next: map<string, string>)
    ensures outcome == ProcessRow(row, cache, ctx).outcome && next == ProcessRow(row, cache, ctx).cache
  {
    var id: Option<string>;
    next := cache;
    if row.sku in cache {
      id := Some(cache[row.sku]);
    } else {
      id := ctx.lookup(row.sku);
      if Truthy(id) {
        next := cache[row.sku := id.value];
      }
    }
    if !Truthy(id) {
      outcome := Skipped;
    } else {
      var (ok, message) := ctx.push(id.value, row.sale);
      outcome := if ok then Updated else Failed(message);
    }
  }
}

=== FILE: selection.dfy ===
/**
  The loaded price list and the two filters applied to it before any update:
  the product-group filter behind the table view, and the positive-purchase-
  price filter that turns the view into the batch shared by the API path and
  the SQL path.
*/
module Selection {
  import opened Wrappers

  /**
    One line of the supplier spreadsheet once loaded: the supplier SKU (the
    join key), the purchase price, the product group (absent when the cell is
    empty) and the sale price column the price engine maintains.
  */
  datatype Row = Row(sku: string, purchase: real, group: Option<string>, sale: real)

  /** A row of a filtered view together with its position in the full sheet. */
  datatype Entry = Entry(index: nat, row: Row)

  /** Why a batch could not be formed. */
  datatype BatchError = NothingSelected | NothingPriced

  /** Entries appear in sheet order, each sheet position at most once. */
  predicate Ascending(view: seq<Entry>) {
    forall a, b :: 0 <= a < b < |view| ==> view[a].index < view[b].index
  }

  /** Every entry is a faithful copy of the sheet row at its position. */
  predicate CopiedFrom(view: seq<Entry>, sheet: seq<Row>) {
    forall e :: e in view ==> e.index < |sheet| && sheet[e.index] == e.row
  }

  /** Whether a row's group box is ticked; a row without a group never is. */
  predicate Ticked(row: Row, checks: map<string, bool>) {
    row.group.Some? && row.group.value in checks && checks[row.group.value]
  }

  /** The rows of `sheet` satisfying `keep`, with their positions, in sheet order. */
  function Where(sheet: seq<Row>, keep: Row -> bool): (view: seq<Entry>)
    ensures Ascending(view) && CopiedFrom(view, sheet)
    ensures forall e :: e in view ==> keep(e.row)
    ensures forall i :: 0 <= i < |sheet| && keep(sheet[i]) ==> Entry(i, sheet[i]) in view
    decreases |sheet|
  {
    if |sheet| == 0 then []
    else
      var n := |sheet| - 1;
      var prefix := Where(sheet[..n], keep);
      var last := if keep(sheet[n]) then [Entry(n, sheet[n])] else [];
      WhereStep(sheet, keep, prefix, last);
      prefix + last
  }

  /** Extending the rows kept from all but the last sheet row by the last one, when kept. */
  lemma WhereStep(sheet: seq<Row>, keep: Row -> bool, prefix: seq<Entry>, last: seq<Entry>)
    requires |sheet| > 0
    requires Ascending(prefix) && CopiedFrom(prefix, sheet[..|sheet| - 1])
    requires forall e :: e in prefix ==> keep(e.row)
    requires forall i :: 0 <= i < |sheet| - 1 && keep(sheet[i]) ==> Entry(i, sheet[i]) in prefix
    requires last == if keep(sheet[|sheet| - 1]) then [Entry(|sheet| - 1, sheet[|sheet| - 1])] else []
    ensures Ascending(prefix + last) && CopiedFrom(prefix + last, sheet)
    ensures forall e :: e in prefix + last ==> keep(e.row)
    ensures forall i :: 0 <= i < |sheet| && keep(sheet[i]) ==> Entry(i, sheet[i]) in prefix + last
  {
    var n := |sheet| - 1;
    forall e | e in prefix
      ensures e.index < n && sheet[e.index] == e.row
    {
      assert sheet[..n][e.index] == e.row;
    }
    forall i | 0 <= i < n && keep(sheet[i])
      ensures Entry(i, sheet[i]) in prefix + last
    {
      assert sheet[..n][i] == sheet[i];
    }
    var view := prefix + last;
    forall a, b | 0 <= a < b < |view|
      ensures view[a].index < view[b].index
    {
      if b < |prefix| {
        assert view[a] == prefix[a] && view[b] == prefix[b];
      } else {
        assert view[a] == prefix[a] && prefix[a] in prefix;
      }
    }
  }

  /** The whole sheet as a view (pandas' `df.copy()`). */
  function Everything(sheet: seq<Row>): (view: seq<Entry>)
    ensures |view| == |sheet|
    ensures forall i :: 0 <= i < |sheet| ==> view[i] == Entry(i, sheet[i])
  {
    seq(|sheet|, i requires 0 <= i < |sheet| => Entry(i, sheet[i]))
  }

  /**
    The group filter of `filter_and_display`. When the sheet has a group
    column and at least one group box exists, the view holds the rows whose
    group is ticked (none at all when no box is ticked); otherwise it holds
    every row.
  */
  function FilterRows(sheet: seq<Row>, hasGroupColumn: bool, checks: map<string, bool>): (view: seq<Entry>)
    ensures Ascending(view) && CopiedFrom(view, sheet)
    ensures !hasGroupColumn || |checks| == 0 ==>
              |view| == |sheet| && forall i :: 0 <= i < |sheet| ==> view[i] == Entry(i, sheet[i])
    ensures hasGroupColumn && |checks| > 0 ==>
              forall i :: 0 <= i < |sheet| ==> (Entry(i, sheet[i]) in view <==> Ticked(sheet[i], checks))
    ensures hasGroupColumn && (forall g :: g in checks ==> !checks[g]) && |checks| > 0 ==> view == []
  {
    if hasGroupColumn && |checks| > 0 then
      if exists g :: g in checks && checks[g] then Where(sheet, r => Ticked(r, checks)) else []
    else
      var view := Everything(sheet);
      assert forall a, b :: 0 <= a < b < |view| ==> view[a].index == a && view[b].index == b;
      view
  }

  /** The entries of `view` with a positive purchase price, in view order. */
  function Priced(view: seq<Entry>): (batch: seq<Entry>)
    ensures forall e :: e in batch <==> e in view && e.row.purchase > 0.0
    ensures |batch| <= |view|
    decreases |view|
  {
    if |view| == 0 then []
    else
      var n := |view| - 1;
      assert view == view[..n] + [view[n]];
      Priced(view[..n]) + (if view[n].row.purchase > 0.0 then [view[n]] else [])
  }

  /** Dropping the unpriced entries keeps the view's order. */
  lemma {:induction false} PricedKeepsOrder(view: seq<Entry>)
    requires Ascending(view)
    ensures Ascending(Priced(view))
    decreases |view|
  {
    if |view| > 0 {
      var n := |view| - 1;
      var prefix := Priced(view[..n]);
      PricedKeepsOrder(view[..n]);
      if view[n].row.purchase > 0.0 {
        var batch := prefix + [view[n]];
        assert Priced(view) == batch;
        forall a, b | 0 <= a < b < |batch|
          ensures batch[a].index < batch[b].index
        {
          assert batch[a] == prefix[a];
          if b == |prefix| {
            assert prefix[a] in view[..n];
            var k :| 0 <= k < n && view[..n][k] == prefix[a];
            assert view[k].index < view[n].index;
          } else {
            assert batch[b] == prefix[b];
          }
        }
      } else {
        assert Priced(view) == prefix + [];
      }
    }
  }

  /**
    The checks `update_via_api` and `generate_sql` make before doing
    anything: an empty view aborts, and so does a view without a single
    positive purchase price; otherwise the batch is the priced part of the view.
  */
  function PrepareBatch(view: seq<Entry>): (r: Result<seq<Entry>, BatchError>)
    ensures |view| == 0 ==> r == Failure(NothingSelected)
    ensures |view| > 0 && (forall e :: e in view ==> e.row.purchase <= 0.0) ==> r == Failure(NothingPriced)
    ensures r == Failure(NothingPriced) ==> forall e :: e in view ==> e.row.purchase <= 0.0
    ensures r.Success? ==> |r.value| > 0 && forall e :: e in r.value <==> e in view && e.row.purchase > 0.0
    ensures r.Success? <==> exists e :: e in view && e.row.purchase > 0.0
  {
    if |view| == 0 then Failure(NothingSelected)
    else
      var batch := Priced(view);
      if |batch| == 0 then
        assert forall e :: e !in batch;
        Failure(NothingPriced)
      else
        assert batch[0] in batch;
        Success(batch)
  }

  /**
    An ascending view is determined by which entries it holds: the membership
    and ordering contracts above pin each view down completely.
  */
  lemma {:induction false} AscendingDeterminedByMembers(a: seq<Entry>, b: seq<Entry>)
    requires Ascending(a) && Ascending(b)
    requires forall e :: e in a <==> e in b
    ensures a == b
    decreases |a|
  {
    if |a| == 0 {
      if |b| > 0 {
        FirstIsMember(b);
        assert false;
      }
    } else {
      FirstIsMember(a);
      assert |b| > 0;
      FirstIsMember(b);
      var i :| 0 <= i < |b| && b[i] == a[0];
      var j :| 0 <= j < |a| && a[j] == b[0];
      FirstIsSmallest(b, i);
      FirstIsSmallest(a, j);
      assert a[0] == b[0];
      forall e
        ensures e in a[1..] <==> e in b[1..]
      {
        if e in a[1..] {
          var k :| 1 <= k < |a| && a[k] == e;
          FirstIsSmallest(a, k);
          assert e in b;
        }
        if e in b[1..] {
          var k :| 1 <= k < |b| && b[k] == e;
          FirstIsSmallest(b, k);
          assert e in a;
        }
      }
      AscendingDeterminedByMembers(a[1..], b[1..]);
    }
  }

  lemma FirstIsMember(s: seq<Entry>)
    requires |s| > 0
    ensures s[0] in s
  {
  }

  /** In an ascending view the first entry has the smallest position, and no other shares it. */
  lemma FirstIsSmallest(s: seq<Entry>, k: nat)
    requires Ascending(s) && k < |s|
    ensures s[0].index <= s[k].index
    ensures k > 0 ==> s[0].index < s[k].index
  {
  }
}

=== FILE: sql_script.dfy ===
/**
  The SQL fallback: the script that sets each batch row's sale price on the
  products linked to its SKU for one supplier, then copies the prices to the
  per-shop table. The script is a list of lines; `Render` gives each line's
  text, and the file is those texts joined by line breaks.
*/
module SqlScript {
  import opened Wrappers
  import opened DecimalText
  import opened Selection

  /** Why no script is produced. */
  datatype SqlError = NoSupplierId

  /**
    The supplier id the script uses: the configured one when it is
    non-empty, otherwise the answer typed into the dialog (`None` when the
    dialog is cancelled). An empty answer aborts too.
  */
  function SupplierFor(configured: Option<string>, asked: Option<string>): (r: Result<string, SqlError>)
    ensures r.Success? ==> r.value != ""
    ensures Truthy(configured) ==> r == Success(configured.value)
    ensures !Truthy(configured) ==> (r.Success? <==> Truthy(asked))
    ensures !Truthy(configured) && Truthy(asked) ==> r == Success(asked.value)
  {
    if Truthy(configured) then Success(configured.value)
    else if Truthy(asked) then Success(asked.value)
    else Failure(NoSupplierId)
  }

  /** The kinds of line a script holds. */
  datatype SqlLine =
    | RunDate(stamp: string)
    | MarginNote(margin: real)
    | CountNote(count: nat)
    | SupplierNote(supplierId: string)
    | Blank
    | SyncNote
    | SetPrice(sku: string, price: real, supplierId: string)
    | SyncShop(supplierId: string)

  /** The keyword every statement of the script starts with. */
  const UpdateKeyword: string := "UPDATE "

  /** The table clauses of a row statement, up to the printed price. */
  const ProductTarget: string :=
    "ps_product p\nJOIN ps_product_supplier ps ON p.id_product = ps.id_product\nSET p.price = "

  /** The condition closing a row statement: the SKU, quoted as is, and the supplier. */
  function RowCondition(sku: string, supplierId: string): string {
    "\nWHERE ps.product_supplier_reference = '" + sku + "' AND ps.id_supplier = " + supplierId + ";"
  }

  /** A comment line of the script. */
  function Comment(text: string): string {
    "-- " + text
  }

  /** The labels of the header comments, each followed by its value. */
  const DateHeading: string := "Mise à jour prix du "
  const MarginHeading: string := "Marge appliquée: "
  const CountHeading: string := "Produits: "
  const SupplierHeading: string := "Fournisseur ID: "

  /** The comment announcing the synchronisation statement. */
  const SyncHeading: string := "Synchroniser ps_product_shop"

  /** The table clauses of the synchronisation statement, up to its condition. */
  const ShopTarget: string :=
    "ps_product_shop psh\nJOIN ps_product p ON psh.id_product = p.id_product\n"
    + "JOIN ps_product_supplier ps ON p.id_product = ps.id_product\nSET psh.price = p.price\n"

  /** The condition closing the synchronisation statement: the supplier only. */
  function SyncCondition(supplierId: string): string {
    "WHERE ps.id_supplier = " + supplierId + ";"
  }

  /** The text of a comment line, after the comment marker. */
  function NoteText(line: SqlLine): string {
    match line
    case RunDate(stamp) => DateHeading + stamp
    case MarginNote(margin) => MarginHeading + FormatFixed(margin, 0) + "%"
    case CountNote(count) => CountHeading + NatToString(count)
    case SupplierNote(supplierId) => SupplierHeading + supplierId
    case SyncNote => SyncHeading
    case _ => ""
  }

  /** The text of a statement after the UPDATE keyword. */
  function StatementBody(line: SqlLine): string {
    match line
    case SetPrice(sku, price, supplierId) => ProductTarget + FormatFixed(price, 3) + RowCondition(sku, supplierId)
    case SyncShop(supplierId) => ShopTarget + SyncCondition(supplierId)
    case _ => ""
  }

  predicate StartsWith(text: string, head: string) {
    |head| <= |text| && text[..|head|] == head
  }

  predicate EndsWith(text: string, tail: string) {
    |tail| <= |text| && text[|text| - |tail|..] == tail
  }

  /** `text` is `head` followed by exactly `rest`. */
  predicate Labelled(text: string, head: string, rest: string) {
    StartsWith(text, head) && text[|head|..] == rest
  }

  /** Between `head` and `tail`, `text` holds a number that reads back as `value`. */
  predicate ShowsNumber(text: string, head: string, value: real, tail: string) {
    && |head| + |tail| <= |text|
    && StartsWith(text, head)
    && EndsWith(text, tail)
    && ParseDecimal(text[|head|..|text| - |tail|]) == Some(value)
  }

  /**
    What each line of the script says: the run date, the margin as a whole
    percentage, the number of products and the supplier id in the header;
    for each row the price, rounded to three places, between the table
    clauses and the condition on the SKU and the supplier; and the
    synchronisation of the per-shop prices for the supplier.
  */
  predicate ShowsSqlLine(text: string, line: SqlLine) {
    match line
    case Blank => text == ""
    case RunDate(stamp) => Labelled(text, Comment(DateHeading), stamp)
    case MarginNote(margin) => ShowsNumber(text, Comment(MarginHeading), Round(margin, 0), "%")
    case CountNote(count) => Labelled(text, Comment(CountHeading), NatToString(count))
    case SupplierNote(supplierId) => Labelled(text, Comment(SupplierHeading), supplierId)
    case SyncNote => text == Comment(SyncHeading)
    case SetPrice(sku, price, supplierId) =>
      ShowsNumber(text, UpdateKeyword + ProductTarget, Round(price, 3), RowCondition(sku, supplierId))
    case SyncShop(supplierId) => Labelled(text, UpdateKeyword + ShopTarget, SyncCondition(supplierId))
  }

  /** The text of one line; a statement's own line breaks stay inside it. */
  function Render(line: SqlLine): (text: string)
    ensures text == "" <==> line.Blank?
    ensures !line.Blank? && !IsStatement(line) ==> |text| >= 3 && text[..3] == "-- "
    ensures ShowsSqlLine(text, line)
  {
    if line.Blank? then ""
    else if IsStatement(line) then
      StatementShown(line);
      UpdateKeyword + StatementBody(line)
    else
      NoteShown(line);
      Comment(NoteText(line))
  }

  lemma Joined(head: string, rest: string)
    ensures Labelled(head + rest, head, rest)
  {
  }

  /** Each comment line shows its label and its value. */
  lemma NoteShown(line: SqlLine)
    requires !line.Blank? && !IsStatement(line)
    ensures ShowsSqlLine(Comment(NoteText(line)), line)
  {
    match line
    case RunDate(stamp) =>
      assert Comment(NoteText(line)) == Comment(DateHeading) + stamp;
      Joined(Comment(DateHeading), stamp);
    case MarginNote(margin) =>
      MarginShown(margin);
    case CountNote(count) =>
      assert Comment(NoteText(line)) == Comment(CountHeading) + NatToString(count);
      Joined(Comment(CountHeading), NatToString(count));
    case SupplierNote(supplierId) =>
      assert Comment(NoteText(line)) == Comment(SupplierHeading) + supplierId;
      Joined(Comment(SupplierHeading), supplierId);
    case SyncNote =>
    case _ =>
  }

  /** The margin comment reads back as the margin rounded to a whole percentage. */
  lemma MarginShown(margin: real)
    ensures ShowsNumber(Comment(NoteText(MarginNote(margin))), Comment(MarginHeading), Round(margin, 0), "%")
  {
    var percent := FormatFixed(margin, 0);
    assert Comment(NoteText(MarginNote(margin))) == Comment(MarginHeading) + percent + "%";
    Middle(Comment(MarginHeading), percent, "%");
    assert ParseDecimal(percent) == Some(Round(margin, 0)) by {
      FormatParseRoundTrip(margin, 0);
    }
  }

  /** Each statement shows its table clauses, its price and its condition. */
  lemma StatementShown(line: SqlLine)
    requires IsStatement(line)
    ensures ShowsSqlLine(UpdateKeyword + StatementBody(line), line)
  {
    match line
    case SetPrice(sku, price, supplierId) =>
      PriceShown(sku, price, supplierId);
    case SyncShop(supplierId) =>
      assert UpdateKeyword + StatementBody(line) == (UpdateKeyword + ShopTarget) + SyncCondition(supplierId);
      Joined(UpdateKeyword + ShopTarget, SyncCondition(supplierId));
  }

  /** A row statement's price reads back as the price rounded to three places. */
  lemma PriceShown(sku: string, price: real, supplierId: string)
    ensures ShowsNumber(UpdateKeyword + StatementBody(SetPrice(sku, price, supplierId)),
                        UpdateKeyword + ProductTarget, Round(price, 3), RowCondition(sku, supplierId))
  {
    var printed := FormatFixed(price, 3);
    var condition := RowCondition(sku, supplierId);
    Regroup(UpdateKeyword, ProductTarget, printed, condition);
    Middle(UpdateKeyword + ProductTarget, printed, condition);
    assert ParseDecimal(printed) == Some(Round(price, 3)) by {
      FormatParseRoundTrip(price, 3);
    }
  }

  /** The texts of a list of lines, in order. */
  function RenderAll(lines: seq<SqlLine>): (texts: seq<string>)
    ensures |texts| == |lines|
    ensures forall k :: 0 <= k < |lines| ==> texts[k] == Render(lines[k])
  {
    seq(|lines|, k requires 0 <= k < |lines| => Render(lines[k]))
  }

  /** The five header lines: four comments and a blank line. */
  function Header(stamp: string, margin: real, count: nat, supplierId: string): (lines: seq<SqlLine>) {
    [RunDate(stamp), MarginNote(margin), CountNote(count), SupplierNote(supplierId), Blank]
  }

  /** The three trailing lines: a blank line, a comment and the synchronisation. */
  function Trailer(supplierId: string): seq<SqlLine> {
    [Blank, SyncNote, SyncShop(supplierId)]
  }

  /**
    One statement per batch entry, in batch order, each reading the row at
    the entry's position in the current sheet (`self.df.loc[idx]`), not the
    entry's own copy.
  */
  function Statements(sheet: seq<Row>, batch: seq<Entry>, supplierId: string): (stmts: seq<SqlLine>)
    requires forall e :: e in batch ==> e.index < |sheet|
    ensures |stmts| == |batch|
    ensures forall k :: 0 <= k < |batch| ==>
              stmts[k] == SetPrice(sheet[batch[k].index].sku, sheet[batch[k].index].sale, supplierId)
  {
    seq(|batch|, k requires 0 <= k < |batch| =>
      SetPrice(sheet[batch[k].index].sku, sheet[batch[k].index].sale, supplierId))
  }

  /** The lines of the script for a batch. `stamp` is the clock reading. */
  function Script(stamp: string, margin: real, sheet: seq<Row>, batch: seq<Entry>, supplierId: string): (lines: seq<SqlLine>)
    requires forall e :: e in batch ==> e.index < |sheet|
    ensures |lines| == |batch| + 8
    ensures lines[1] == MarginNote(margin) && lines[2] == CountNote(|batch|) && lines[3] == SupplierNote(supplierId)
    ensures lines[|lines| - 1] == SyncShop(supplierId)
  {
    Header(stamp, margin, |batch|, supplierId) + Statements(sheet, batch, supplierId) + Trailer(supplierId)
  }

  /** Why `generate_sql` stops without writing a script. */
  datatype GenerateError = Batch(batchError: BatchError) | Supplier(sqlError: SqlError)

  /**
    `generate_sql` after its checks: an empty view or a view without a
    positive purchase price aborts, and only then is a missing supplier id
    asked for and, when none is given, an abort too.
  */
  function GenerateSql(stamp: string, margin: real, sheet: seq<Row>, view: seq<Entry>,
                       configured: Option<string>, asked: Option<string>): (r: Result<seq<SqlLine>, GenerateError>)
    requires forall e :: e in view ==> e.index < |sheet|
    ensures PrepareBatch(view).Failure? ==> r == Failure(Batch(PrepareBatch(view).error))
    ensures PrepareBatch(view).Success? && SupplierFor(configured, asked).Failure? ==> r == Failure(Supplier(NoSupplierId))
    ensures r.Success? ==>
              && PrepareBatch(view).Success? && SupplierFor(configured, asked).Success?
              && r.value == Script(stamp, margin, sheet, PrepareBatch(view).value, SupplierFor(configured, asked).value)
  {
    match PrepareBatch(view)
    case Failure(e) => Failure(Batch(e))
    case Success(batch) =>
      match SupplierFor(configured, asked)
      case Failure(e) => Failure(Supplier(e))
      case Success(id) => Success(Script(stamp, margin, sheet, batch, id))
  }

  /** Whether a line is an UPDATE statement. */
  predicate IsStatement(line: SqlLine) {
    line.SetPrice? || line.SyncShop?
  }

  /** Whether a text starts with the UPDATE keyword. */
  predicate IsStatementText(text: string) {
    StartsWith(text, UpdateKeyword)
  }

  /** How many texts start with the UPDATE keyword. */
  function StatementCount(texts: seq<string>): nat {
    if |texts| == 0 then 0
    else (if IsStatementText(texts[0]) then 1 else 0) + StatementCount(texts[1..])
  }

  /** How many lines are statements. */
  function StatementLines(lines: seq<SqlLine>): nat {
    if |lines| == 0 then 0
    else (if IsStatement(lines[0]) then 1 else 0) + StatementLines(lines[1..])
  }

  lemma KeywordStartsStatement(rest: string)
    ensures IsStatementText(UpdateKeyword + rest)
  {
    assert (UpdateKeyword + rest)[..|UpdateKeyword|] == UpdateKeyword;
  }

  lemma CommentIsNotStatement(text: string)
    ensures !IsStatementText(Comment(text))
  {
    assert Comment(text)[0] == '-';
  }

  /** A line's text starts with UPDATE exactly when the line is a statement. */
  lemma RenderedStatement(line: SqlLine)
    ensures IsStatementText(Render(line)) <==> IsStatement(line)
  {
    if IsStatement(line) {
      KeywordStartsStatement(StatementBody(line));
    } else if !line.Blank? {
      CommentIsNotStatement(NoteText(line));
    }
  }

  /** Counting UPDATE texts after rendering counts the statement lines. */
  lemma {:induction false} RenderedStatementCount(lines: seq<SqlLine>)
    ensures StatementCount(RenderAll(lines)) == StatementLines(lines)
    decreases |lines|
  {
    if |lines| > 0 {
      RenderedStatement(lines[0]);
      RenderedStatementCount(lines[1..]);
      assert RenderAll(lines)[1..] == RenderAll(lines[1..]);
    }
  }

  lemma {:induction false} StatementLinesAppend(a: seq<SqlLine>, b: seq<SqlLine>)
    ensures StatementLines(a + b) == StatementLines(a) + StatementLines(b)
    decreases |a|
  {
    if |a| > 0 {
      assert (a + b)[1..] == a[1..] + b;
      StatementLinesAppend(a[1..], b);
    } else {
      assert a + b == b;
    }
  }

  lemma {:induction false} AllStatements(lines: seq<SqlLine>)
    requires forall k :: 0 <= k < |lines| ==> IsStatement(lines[k])
    ensures StatementLines(lines) == |lines|
    decreases |lines|
  {
    if |lines| > 0 {
      AllStatements(lines[1..]);
    }
  }

  lemma {:induction false} NoStatements(lines: seq<SqlLine>)
    requires forall k :: 0 <= k < |lines| ==> !IsStatement(lines[k])
    ensures StatementLines(lines) == 0
    decreases |lines|
  {
    if |lines| > 0 {
      NoStatements(lines[1..]);
    }
  }

  lemma Concatenation<T>(head: seq<T>, body: seq<T>, tail: seq<T>)
    ensures (head + body + tail)[..|head|] == head
    ensures (head + body + tail)[|head| + |body|..] == tail
  {
  }

  lemma ConcatenationAt<T>(head: seq<T>, body: seq<T>, tail: seq<T>, k: nat)
    requires k < |body|
    ensures (head + body + tail)[|head| + k] == body[k]
  {
  }

  /**
    The shape of the script: five header lines, one statement per batch
    entry in batch order, reading the current sheet, then three trailing
    lines.
  */
  lemma ScriptShape(stamp: string, margin: real, sheet: seq<Row>, batch: seq<Entry>, supplierId: string)
    requires forall e :: e in batch ==> e.index < |sheet|
    ensures var lines := Script(stamp, margin, sheet, batch, supplierId);
            && |lines| == |batch| + 8
            && lines[..5] == Header(stamp, margin, |batch|, supplierId)
            && (forall k :: 0 <= k < |batch| ==>
                  lines[5 + k] == SetPrice(sheet[batch[k].index].sku, sheet[batch[k].index].sale, supplierId))
            && lines[|batch| + 5..] == Trailer(supplierId)
  {
    var head := Header(stamp, margin, |batch|, supplierId);
    var body := Statements(sheet, batch, supplierId);
    var lines := Script(stamp, margin, sheet, batch, supplierId);
    assert |head| == 5 && lines == head + body + Trailer(supplierId);
    Concatenation(head, body, Trailer(supplierId));
    forall k | 0 <= k < |batch|
      ensures lines[5 + k] == SetPrice(sheet[batch[k].index].sku, sheet[batch[k].index].sale, supplierId)
    {
      ConcatenationAt(head, body, Trailer(supplierId), k);
    }
  }

  /**
    The script holds one UPDATE statement per batch entry plus the final
    synchronisation, and once rendered exactly those texts start with UPDATE.
  */
  lemma ScriptStatementCount(stamp: string, margin: real, sheet: seq<Row>, batch: seq<Entry>, supplierId: string)
    requires forall e :: e in batch ==> e.index < |sheet|
    ensures StatementLines(Script(stamp, margin, sheet, batch, supplierId)) == |batch| + 1
    ensures StatementCount(RenderAll(Script(stamp, margin, sheet, batch, supplierId))) == |batch| + 1
  {
    var head := Header(stamp, margin, |batch|, supplierId);
    var body := Statements(sheet, batch, supplierId);
    var tail := Trailer(supplierId);
    AllStatements(body);
    NoStatements(head);
    assert tail == [Blank, SyncNote] + [SyncShop(supplierId)];
    NoStatements([Blank, SyncNote]);
    AllStatements([SyncShop(supplierId)]);
    StatementLinesAppend([Blank, SyncNote], [SyncShop(supplierId)]);
    StatementLinesAppend(head, body);
    StatementLinesAppend(head + body, tail);
    RenderedStatementCount(Script(stamp, margin, sheet, batch, supplierId));
  }

  /** Two scripts for the same batch differ only in the margin comment. */
  lemma ScriptRelabel(stamp: string, margin: real, other: real, sheet: seq<Row>, batch: seq<Entry>, supplierId: string)
    requires forall e :: e in batch ==> e.index < |sheet|
    ensures var lines := Script(stamp, margin, sheet, batch, supplierId);
            |lines| > 1 && Script(stamp, other, sheet, batch, supplierId) == lines[1 := MarginNote(other)]
  {
    var head := Header(stamp, margin, |batch|, supplierId);
    var rest := Statements(sheet, batch, supplierId) + Trailer(supplierId);
    assert Script(stamp, margin, sheet, batch, supplierId) == head + rest;
    assert Script(stamp, other, sheet, batch, supplierId) == Header(stamp, other, |batch|, supplierId) + rest;
    assert Header(stamp, other, |batch|, supplierId) == head[1 := MarginNote(other)];
    ReplaceInHead(head, rest, 1, MarginNote(other));
  }

  /** Replacing an element of the first part of a concatenation. */
  lemma ReplaceInHead<T>(head: seq<T>, rest: seq<T>, i: nat, x: T)
    requires i < |head|
    ensures head[i := x] + rest == (head + rest)[i := x]
  {
  }

  lemma Regroup(a: string, b: string, c: string, d: string)
    ensures a + (b + c + d) == (a + b) + c + d
  {
  }

  lemma Middle(a: string, b: string, c: string)
    ensures var s := a + b + c;
            && s[..|a|] == a && s[|s| - |c|..] == c && s[|a|..|s| - |c|] == b
  {
  }

  /**
    The price printed in a row statement, the text between the table
    clauses and the row condition, reads back as the sale price rounded to
    three places.
  */
  lemma StatementPrice(sku: string, sale: real, supplierId: string)
    ensures var s := Render(SetPrice(sku, sale, supplierId));
            var start := |UpdateKeyword| + |ProductTarget|;
            var end := |s| - |RowCondition(sku, supplierId)|;
            && start <= end
            && s[..start] == UpdateKeyword + ProductTarget
            && s[end..] == RowCondition(sku, supplierId)
            && ParseDecimal(s[start..end]) == Some(Round(sale, 3))
  {
    var price := FormatFixed(sale, 3);
    var s := Render(SetPrice(sku, sale, supplierId));
    Regroup(UpdateKeyword, ProductTarget, price, RowCondition(sku, supplierId));
    Middle(UpdateKeyword + ProductTarget, price, RowCondition(sku, supplierId));
    FormatParseRoundTrip(sale, 3);
  }

  /** Rows without a positive purchase price never reach the script. */
  lemma UnpricedRowsExcluded(stamp: string, margin: real, sheet: seq<Row>, view: seq<Entry>,
                             configured: Option<string>, asked: Option<string>, e: Entry)
    requires forall x :: x in view ==> x.index < |sheet|
    requires GenerateSql(stamp, margin, sheet, view, configured, asked).Success?
    requires e.row.purchase <= 0.0
    ensures e !in PrepareBatch(view).value
  {
  }
}

=== FILE: wrappers.dfy ===
/** Failure-compatible wrappers shared by the whole model. */
module Wrappers {

  /** A value that may be absent (Python's `None`). */
  datatype Option<+T> = None | Some(value: T)

  /** Either a value or the reason the operation gave up. */
  datatype Result<+R, +E> = Success(value: R) | Failure(error: E) {
    predicate IsFailure() {
      Failure?
    }
  }

  /** Python truthiness of an optional string: present and non-empty. */
  predicate Truthy(s: Option<string>) {
    s.Some? && s.value != ""
  }
}
